=== FILE: README.md ===
# SILang interpreter core in Dafny

SILang is a small stack language. A program is a set of `proc NAME … end`
blocks. Inside a block, literals push values on an operand stack, keywords
operate on it, and `if … else … end` chooses between byte ranges of the
source. The C++ interpreter has three parts, and this project models all
three:

- **The reader** (`SILex_Reader`). It reads one token at a time out of a
  byte range `[start, limit)` of the program text. It classifies each run of
  characters as a string literal, Boolean, keyword, number or identifier.
  An unterminated string gives a failure token.
- **The prescan** (`Proto_Initialize`). It walks the whole text once,
  pairing `proc`/`if`/`else` with their `end`. It stores each procedure's
  body range under the procedure's name, and each conditional's ranges
  under the decimal text of the read position just after its `if`. It does
  this in a binary tree ordered by key length only (`SIAbsTree::Tree`).
- **The engine** (`SIVM_Exec`). It keeps a stack of frames, each a byte
  range still to run. It replays the top frame's range through the reader
  and dispatches each token. When a range is exhausted, its frame is popped
  and the new top frame's range is entered again from its stored start.

The model has these modules:

| file | module |
|---|---|
| `decimal.dfy` | `Decimal`: the digits and the `std::to_string` of a natural |
| `values.dfy` | `Values`: stack values, prescan records, table bindings, error conditions |
| `lexer.dfy` | `Lexer`: the reader, token classification and number values |
| `tree.dfy` | `LengthTree`: the length-ordered symbol table with its `getNode`, `insertNode`, `assign_val` and `delNode` |
| `prescan.dfy` | `Prescan`: block matching and the records it stores |
| `instructions.dfy` | `Instructions`: the keyword handlers that only touch the operand stack |
| `engine.dfy` | `Engine`: frames, one step, a fuel-bounded run, and `exec` |
| `aswritten.dfy` | `AsWritten`: `SIVM_CopyValue` with its Boolean case as written (see Findings) |

Every operation is a pure function.

- **Stack.** The operand stack is a sequence whose top is its last element.
  Each handler returns the new stack, the error the source reports, or
  `Undef` when the source has undefined behaviour on that input.
- **Numbers.** Numbers are reals.
- **Positions.** Positions are naturals. The reader's `new_region`, which
  silently refuses an out-of-range region, is kept as written.
- **Termination.** The engine runs for a given number of steps, because
  SILang programs need not terminate.

Where the language's documentation and the code disagree, the model follows
the code:

- **`gteq` and `lteq`.** They are keywords in the reader's keyword set and
  have handlers, although the documented reserved-word list omits them.
- **`dref`.** It does not remove the binding it names. The handler calls
  `delNode`, which drops one child subtree of that name's node and leaves
  the node itself bound. `Engine.DrefKeepsItsName` and
  `LengthTree.DelDropsUnrelated` state this.
- **Bare-name calls.** A procedure called by its bare name does not record
  a resume position in the caller's frame. When the callee returns, the
  caller's range is entered again from its stored start, not from after the
  call (`Engine.CallThenReturnRestartsCaller`). Only `jmp` stores the
  resume position (`Engine.JmpThenReturnResumes`).

## Model

| member | source | states |
|---|---|---|
| Decimal.NatToString | src/sivm.hpp:122 | the key text of a position is a non-empty digit string; it has one digit exactly when the position is below 10 |
| Decimal.NatToStringRoundTrip | src/sivm.hpp:122 | reading the decimal key text back as digits gives the position |
| Decimal.NatToStringInjective | src/sivm.hpp:122 | distinct positions get distinct key texts |
| Lexer.NewReader | src/silex.hpp:70-77 | a fresh reader over a text has an empty region: the first read is end of input |
| Lexer.SetRegion | src/silex.hpp:78-86 | an accepted region moves the cursor to its start, sets the limit to its end and resets the line count; an end past the text or before the start leaves the reader unchanged |
| Lexer.Flush | src/silex.hpp:62-67 | flushing keeps the reader consistent |
| Lexer.Skip | src/silex.hpp:89-105 | the separator skip stops at the limit or at the first position that is neither a separator nor inside a `#` comment; every skipped position is one of those; it counts the newlines passed |
| Lexer.ScanRun | src/silex.hpp:114-132 | a run ends within the limit; a still-open quote at the end means it reached the limit; a run starting on a non-separator is non-empty |
| Lexer.PlainRun | src/silex.hpp:116-132 | a run without quotes ends at the next separator or the limit |
| Lexer.QuotedRun | src/silex.hpp:120-129 | a run that starts with a quote ends just after the next matching quote, whatever it crosses |
| Lexer.UnterminatedRun | src/silex.hpp:120-137 | a quote with no match before the limit runs to the limit with the quote still open |
| Lexer.InsideQuote | src/silex.hpp:120-125 | inside a quote, the run ends just after the matching quote |
| Lexer.UnclosedQuote | src/silex.hpp:116-132 | inside a quote with no match before the limit, the run reaches the limit still open |
| Lexer.SignCount | src/silex.hpp:110 | the leading sign count covers exactly the maximal prefix of `+`/`-` |
| Lexer.IndexOf | src/silex.hpp:110 | the first occurrence of a character, or the length when it is absent |
| Lexer.ExpIndex | src/silex.hpp:110 | the first `e`/`E`, or the length when there is none |
| Lexer.Classify | src/silex.hpp:138-158 | a literal is a string exactly when it matches the quoted pattern; a Boolean exactly when it is `true`/`false`; a keyword exactly when it is in the keyword set; a number exactly when it matches the number pattern; an identifier exactly when it is none of these; the value is the literal, or the text between the quotes for a string |
| Lexer.KeywordIsLower | src/silex.hpp:16-26 | every keyword is a non-empty lower-case word |
| Lexer.MantissaChars | src/silex.hpp:110 | a mantissa is made of number characters and ends with a digit |
| Lexer.ExponentChars | src/silex.hpp:110 | an exponent is made of number characters |
| Lexer.NumberChars | src/silex.hpp:110 | a number literal is made of number characters and has a digit |
| Lexer.LowerIsNotNumber | src/silex.hpp:110 | a lower-case word never matches the number pattern |
| Lexer.StringIsNothingElse | src/silex.hpp:139-153 | a quoted literal is not a number, keyword or Boolean, so the string test coming first hides nothing |
| Lexer.WordIsNotNumber | src/silex.hpp:145-153 | no keyword or Boolean matches the number pattern, so their order against the number test does not matter |
| Lexer.LoneSignIsIdentifier | src/silex.hpp:110 | a run of signs alone is an identifier, as the pattern needs a digit |
| Lexer.InnerQuoteIsIdentifier | src/silex.hpp:116-158 | a word with a quote after its first character is an identifier |
| Lexer.StringLiteral | src/silex.hpp:139-142 | a quoted body classifies as a string whose value is the body |
| Lexer.Pow10 | src/silex.hpp:155 | powers of ten are positive |
| Lexer.MantissaValue | src/silex.hpp:155 | a mantissa's value, its digits over ten to the number of fraction digits, is never negative |
| Lexer.MantissaOfDigits | src/silex.hpp:155 | a mantissa with no point is worth its digits as an integer |
| Lexer.NumberOfDigits | src/silex.hpp:153-155 | a run of digits matches the number pattern and converts to its decimal value |
| Lexer.NumberValue | src/silex.hpp:155 | a pattern-matching literal gets a value exactly when it has at most one leading sign, as `std::stod` rejects more; out-of-range literals such as `1e999` and `1e-400`, on which `std::stod` throws, are not modelled |
| Lexer.DigitsAreNumber | src/silex.hpp:110 | a plain digit string matches the number pattern with no sign, point or exponent |
| Lexer.NumberOfDecimal | src/silex.hpp:153-155 | the decimal text of a natural reads back as that natural |
| Lexer.MantissaShape | src/silex.hpp:110 | a mantissa is non-empty, does not start with a sign, and holds only digits and points |
| Lexer.SignCountOf | src/silex.hpp:110 | signs followed by a non-sign are counted exactly, and the body after them is the rest |
| Lexer.ExpIndexOf | src/silex.hpp:110 | in a mantissa followed by an exponent part, the first `e`/`E` is where the exponent part starts |
| Lexer.MantissaOfPoint | src/silex.hpp:110-155 | the mantissa `d.f` matches the pattern and is worth the digits of d and f read as one integer, over ten to the number of digits in f |
| Lexer.ExpDigitsOf | src/silex.hpp:110 | the digits of the exponent part `e[±]x` are x, and its second character is `-` exactly when the sign is `-` |
| Lexer.ExponentOf | src/silex.hpp:110-155 | the exponent part `e[±]x` matches the pattern and is worth x, negated when the sign is `-` |
| Lexer.NumberValueParts | src/silex.hpp:110-155 | a literal of at most one sign, a mantissa and an exponent part matches the pattern and converts to the mantissa's value times ten to the exponent's value, negated by a leading `-` |
| Lexer.TokenStart | src/silex.hpp:108-109 | a token starts at or after the cursor, within the limit, on a non-separator |
| Lexer.ReadRun | src/silex.hpp:112-162 | after the skip: an open quote gives a failure token at the limit whose message quotes the text read; every other token but end of input is non-empty; an identifier never ends at the limit, as one that does is reported as end of input |
| Lexer.ReadRunTokens | src/silex.hpp:112-162 | a string token read after the skip holds the text between its quotes; a Boolean, keyword, number or identifier token holds its own text and that text's classification |
| Lexer.Emit | src/silex.hpp:138-158 | a complete run is never a failure token; a string keeps the text between its quotes, other words their own text and classification; an identifier at the limit becomes end of input |
| Lexer.InnerSlice | src/silex.hpp:139-140 | the text between a string literal's quotes is the slice one position in from each end |
| Lexer.Read | src/silex.hpp:107-163 | at or past the limit only the kind changes, to end of input; the reader stays consistent over the same text and limit; every token other than end of input advances the cursor |
| Lexer.IdentifierAtLimitIsEof | src/silex.hpp:158-162 | a lone identifier that ends exactly at the limit reads as end of input with its text kept |
| Lexer.LoneLetterIsIdentifier | src/silex.hpp:158 | a single letter is an identifier |
| Lexer.KeywordSpan | src/silex.hpp:144-151 | a keyword token ends its own length after where it starts |
| LengthTree.NewTree | src/siproto.hpp:110-112 | a new table holds only the sentinel root named by the empty string and is ordered |
| LengthTree.Find | src/siproto.hpp:117-135 | the lookup returns nothing or a node with the requested name that is in the tree |
| LengthTree.Get | src/siproto.hpp:117-135 | a name has a value exactly when the lookup finds its node, and the value is that node's |
| LengthTree.LengthsInNames | src/siproto.hpp:117-135 | every name in a subtree has a length within the bounds its ancestors set |
| LengthTree.OrderedSides | src/siproto.hpp:117-135 | in an ordered tree, names in a node's left subtree are shorter than its name and names in its right subtree are not |
| LengthTree.FindComplete | src/siproto.hpp:117-135 | in a length-ordered tree, the lookup finds every name the tree holds |
| LengthTree.Insert | src/siproto.hpp:163-202 | insertion binds a new name to the value, keeps an earlier binding of the same name visible, and leaves every other name as it was |
| LengthTree.InsertEmbeds | src/siproto.hpp:163-202 | insertion only adds a leaf: the old tree sits unchanged inside the new one |
| LengthTree.InsertEntries | src/siproto.hpp:163-202 | insertion adds exactly one entry |
| LengthTree.InsertNames | src/siproto.hpp:163-202 | the names after insertion are the old names plus the new one |
| LengthTree.InsertLengthsIn | src/siproto.hpp:163-202 | inserting a name whose length fits a subtree's bounds keeps the subtree within them |
| LengthTree.InsertOrdered | src/siproto.hpp:163-202 | insertion keeps the length order |
| LengthTree.Assign | src/siproto.hpp:81-91 | assigning rebinds a name that is present, changes nothing when it is absent, and leaves other names alone |
| LengthTree.AssignOrdered | src/siproto.hpp:81-91 | assigning keeps the length order |
| LengthTree.Del | src/siproto.hpp:136-162 | deleting a name never changes what that name is bound to |
| LengthTree.DelPrunesChild | src/siproto.hpp:136-162 | deleting an absent name changes nothing; deleting a present one cuts its left subtree when it is shorter than its parent, else its right subtree |
| LengthTree.DelNames | src/siproto.hpp:136-162 | deleting never adds names |
| LengthTree.DelEntriesExact | src/siproto.hpp:136-162 | the entries after deleting, plus those of the one child subtree cut off at the found node, are exactly the entries before: nothing else is removed |
| LengthTree.FindNames | src/siproto.hpp:117-135 | the node the lookup finds, with its whole subtree, lies inside the tree |
| LengthTree.DelKeepsOutside | src/siproto.hpp:136-162 | every name outside the found node's subtree is still present after deleting |
| LengthTree.DelEntries | src/siproto.hpp:136-162 | deleting never adds entries |
| LengthTree.DelOrdered | src/siproto.hpp:136-162 | deleting keeps the length order |
| LengthTree.DelKeepsSurvivors | src/siproto.hpp:136-162 | every name still bound after a delete keeps its value |
| LengthTree.DelNode | src/siproto.hpp:136-162 | deleting from the root keeps the deleted name's binding |
| LengthTree.DelDropsUnrelated | src/siproto.hpp:136-162 | in a table with `x` and then `yy`, deleting `x` keeps `x` bound and loses `yy`, and deleting `yy` keeps `yy` |
| Prescan.CondKey | src/sivm.hpp:122 | a conditional's key is a non-empty digit string, which no identifier can be |
| Prescan.CondKeyInjective | src/sivm.hpp:122-135 | two conditionals share a key exactly when they start at the same position |
| Prescan.CloseBlockFails | src/sivm.hpp:115-155 | `end` fails with "Unexpected <end>." exactly when no block is open, and with "Expected <if> before <else>." exactly when an `else` is not directly inside an `if`; it fails in no other way |
| Prescan.CloseProc | src/sivm.hpp:140-150 | `end` closing a procedure binds its name to the range from after the name to the start of `end`, and changes no other name |
| Prescan.CloseIf | src/sivm.hpp:121-126 | `end` closing an `if` stores a conditional with no else branch under the `if` position's key, and changes no other key |
| Prescan.CloseElse | src/sivm.hpp:127-139 | `end` closing an `else` stores the conditional with both branches under the enclosing `if`'s key and closes both blocks |
| Prescan.CloseBlockOrdered | src/sivm.hpp:115-155 | closing a block keeps the table length-ordered |
| Prescan.CloseIfWithin | src/sivm.hpp:121-126 | `end` closing an `if` always succeeds and stores a range inside the text |
| Prescan.CloseElseWithin | src/sivm.hpp:127-139 | `end` closing an `else`, when it succeeds, stores ranges inside the text |
| Prescan.CloseProcWithin | src/sivm.hpp:140-150 | `end` closing a procedure always succeeds and stores its body range inside the text |
| Prescan.CloseBlockWithin | src/sivm.hpp:115-155 | closing a block keeps every stored range inside the text, with the else branch at least 4 characters after the if branch starts |
| Prescan.Unclosed | src/sivm.hpp:158-167 | an error is due at the end of input exactly when a block is still open |
| Prescan.UnclosedNamesInnermost | src/sivm.hpp:158-166 | the end-of-input error names the innermost open block: `if`, `else`, or the procedure's name |
| Prescan.ReadFollows | src/silex.hpp:107-163 | a read keeps the text and limit, advances unless at end of input, and passes a keyword's length |
| Prescan.Dispatch | src/sivm.hpp:69-157 | a prescan step stops at end of input with the innermost open block's report and on a failure token with its message; `proc` followed by a failure stops with that failure, followed by a non-identifier stops with "Invalid procedure's name", and followed by a name opens a procedure block at the name; `if` and `else` open a block at the position after them; `end` closes the innermost block or stops with the closing error; any other token moves on; only `end` changes the table, a stop leaves it as it was, and going on advances the reader over the same text |
| Prescan.ScanStep | src/sivm.hpp:69-157 | one prescan step reads on from the cursor over the same text and limit; a token read as `if` or `else` opens a block at the position after it, `end` closes the innermost block or stops with the closing error, and `proc` opens a procedure block at a following name or stops with "Invalid procedure's name"; a stop leaves the table as it was, is clean only at end of input, and reports a failure token's message |
| Prescan.Scan | src/sivm.hpp:69-167 | the prescan loop ends with a consistent reader over the same text |
| Prescan.EndBoundaryIsTokenStart | src/sivm.hpp:120 | the read position minus 3 after `end` is where the `end` token starts |
| Prescan.ElseBoundaryIsTokenStart | src/sivm.hpp:109-111 | the read position minus 4 after `else` is where the `else` token starts |
| Prescan.ScanStops | src/sivm.hpp:69-167 | the prescan ends without error only at end of input, and stops on a failure token with its message |
| Prescan.DispatchOrdered | src/sivm.hpp:69-157 | a step keeps the table ordered, and a stopping step leaves it as it was |
| Prescan.ScanOrdered | src/sivm.hpp:69-167 | the table the prescan builds is length-ordered |
| Prescan.PushMarker | src/sivm.hpp:92-113 | opening a block keeps every marker at or before the cursor, with each `else` at least 4 after the marker beneath it |
| Prescan.OpenWithin | src/sivm.hpp:92-113 | opening a `proc`, `if` or `else` block keeps every stored range and open marker inside the text read so far |
| Prescan.EndWithin | src/sivm.hpp:115-155 | an `end` keeps every stored range inside the text and every open marker before the cursor |
| Prescan.DispatchWithin | src/sivm.hpp:69-157 | a step keeps every stored range inside the text |
| Prescan.ScanWithin | src/sivm.hpp:69-167 | every range the prescan stores lies inside the text |
| Prescan.RunPrescan | src/sivm.hpp:66-170 | the prescan leaves an ordered table. When it succeeds, the reader is flushed back to position 0 at end of input with no text. A failure token's message is the error reported |
| Prescan.PrescanWithin | src/sivm.hpp:66-170 | every procedure and conditional the prescan stores has its range inside the text |
| Instructions.Dup | src/sivm.hpp:525-533 | `dup` fails on an empty stack, else pushes the top again and keeps the rest |
| Instructions.Pop | src/sivm.hpp:567-574 | `pop` fails on an empty stack, else removes exactly the top |
| Instructions.DupPop | src/sivm.hpp:525-574 | `dup` then `pop` gives back the stack |
| Instructions.Swap | src/sivm.hpp:555-565 | `swap` needs two values and exchanges exactly the top two |
| Instructions.SwapTwice | src/sivm.hpp:555-565 | `swap` twice gives back the stack |
| Instructions.ReverseIndex | src/sivm.hpp:535-553 | reversal puts position i at position length-1-i |
| Instructions.ReverseTwice | src/sivm.hpp:535-553 | reversing twice gives back the sequence |
| Instructions.Rotate | src/sivm.hpp:535-553 | `rotate` fails on an empty stack, else reverses the whole stack |
| Instructions.RotateTwice | src/sivm.hpp:535-553 | `rotate` twice gives back the stack |
| Instructions.Print | src/sivm.hpp:581-602 | `print`/`println` fail on an empty stack and otherwise leave the stack as it was |
| Instructions.Not | src/sivm.hpp:327-345 | `not` fails on an empty stack; it replaces the top with the negation of its truth value (a number is true when non-zero, a string or array when non-empty); a name is dropped with nothing pushed |
| Instructions.NotNot | src/sivm.hpp:327-345 | `not` twice turns the top into its truth value, and gives back a Boolean top |
| Instructions.AndOr | src/sivm.hpp:303-326 | `and`/`or` fail with fewer than two values; otherwise they finish exactly when the connective short-circuits on the top (`and` on a falsy value, `or` on a truthy one), popping only the top and pushing `false` or `true`; every other case reads the uncollected operand and is undefined |
| Instructions.AndOrIgnoresSecond | src/sivm.hpp:318-321 | whenever `and`/`or` finishes, the pushed value is the connective of the top's truth value with any second operand, and the rest of the stack is kept |
| Instructions.MkArr | src/sivm.hpp:351-380 | `mkarr` reports each of its errors exactly in its case; on success it replaces the count and the n values beneath it by one array of length n whose first element was the topmost value |
| Instructions.ArrAt | src/sivm.hpp:381-411 | `arrat` needs a whole non-negative index on top and an array beneath it, within bounds; it keeps the array and pushes the index and then the element |
| Instructions.MkArrThenArrAt | src/sivm.hpp:351-411 | indexing a freshly made array at i gives the value that was i places below the count |
| Instructions.ArrConcat | src/sivm.hpp:412-430 | `arrconcat` needs two arrays and replaces them by the top array followed by the other |
| Instructions.ArrPush | src/sivm.hpp:431-446 | `arrpush` needs an array beneath the top and appends the top to it |
| Instructions.ArrPop | src/sivm.hpp:447-459 | `arrpop` needs an array on top and drops its last element, with undefined behaviour exactly when it is empty |
| Instructions.ArrPushThenArrPop | src/sivm.hpp:431-459 | pushing a value onto an array and popping it gives back the array |
| Instructions.StrConcat | src/sivm.hpp:466-483 | `strconcat` needs two strings and replaces them by the top string followed by the other |
| Instructions.StrAt | src/sivm.hpp:485-518 | `strat` needs a string on top and a whole non-negative in-range index beneath; it keeps the index and pushes the one-character string at it |
| Instructions.StrAtOfConcat | src/sivm.hpp:466-518 | indexing a concatenation within its first part gives that part's character |
| Instructions.Abs | src/sivm.hpp:738-739 | the magnitude is non-negative and is the value or its negation |
| Instructions.Trunc | src/sivm.hpp:738-739 | truncation rounds toward zero: it removes a fraction in [0, 1) from a non-negative value and a fraction in (-1, 0] from a negative one |
| Instructions.FModBounds | src/sivm.hpp:738-739 | `fmod` has the sign of the dividend, a magnitude below the divisor's, and differs from the dividend by a whole multiple of the divisor |
| Instructions.Arith | src/sivm.hpp:711-745 | arithmetic needs two numbers and reports division or remainder by zero; on success it replaces them by `below OP top` |
| Instructions.AddThenSub | src/sivm.hpp:711-745 | adding a number and then subtracting it gives back the original |
| Instructions.MulThenDiv | src/sivm.hpp:711-745 | multiplying by a non-zero number and then dividing by it gives back the original |
| Instructions.Compare | src/sivm.hpp:751-779 | comparisons need two numbers and push whether `below OP top` holds |
| Instructions.CompareComplement | src/sivm.hpp:751-779 | `gt` is the negation of `lteq` and `lt` of `gteq` |
| Instructions.Equal | src/sivm.hpp:784-822 | `eq`/`neq` need two values; values of different types give `eq` false and `neq` true; same-typed values compare by value, negated for `neq` |
| Instructions.EqualProperties | src/sivm.hpp:784-822 | `neq` negates `eq`; both are symmetric; a value is `eq` to itself |
| Engine.Enter | src/sivm.hpp:195-197 | entering a frame re-points the reader over the same text and keeps it consistent |
| Engine.Lift | src/sivm.hpp:252-822 | a handler that only touches the stack never halts the step; the step goes on exactly when the handler succeeds and fails with the handler's error exactly when it faults; from a consistent state, going on keeps the state consistent with the handler's stack and the frames and table unchanged |
| Engine.EndOfRegion | src/sivm.hpp:192-201 | end of input in a frame halts exactly when it was the last frame; otherwise it pops the frame and enters the new top frame's range from its start, with the operand stack and table unchanged |
| Engine.IdentifierStep | src/sivm.hpp:216-251 | a name whose next token reads `ref`, `dref` or `jmp` is pushed as a name; otherwise an unbound name fails with "Unknown reference", a variable pushes its value with the frames unchanged, and a procedure pushes its body's frame with the stack unchanged; the step never halts and leaves the table as it was |
| Engine.IfStep | src/sivm.hpp:259-297 | `if` fails exactly when the stack is empty or its top is not a Boolean; it leaves the stack and table as they were |
| Engine.JmpStep | src/sivm.hpp:609-637 | `jmp` needs a name on top that is bound, else reports the matching error; on a procedure it pops only the name, stores the read position after `jmp` as the caller's resume point and pushes the callee's frame; any other binding is undefined behaviour |
| Engine.RefStep | src/sivm.hpp:643-675 | `ref` needs a name on top and a value beneath, refuses a procedure's name, and pops both; on any other name it succeeds and the name is then bound to the value beneath |
| Engine.DrefStep | src/sivm.hpp:676-704 | `dref` needs a bound name that is not a procedure, else reports the matching error; on such a name it succeeds, pops the name and keeps it bound as before |
| Engine.KeywordStep | src/sivm.hpp:252-822 | a keyword step keeps the state consistent and never halts |
| Engine.Exec | src/sivm.hpp:190-251 | a step from a consistent state leads to a consistent state over the same text |
| Engine.Step | src/sivm.hpp:190-191 | one turn of the loop keeps the state consistent |
| Engine.Run | src/sivm.hpp:184-191 | a bounded run keeps the state consistent |
| Engine.Execute | src/sivm.hpp:850-858 | `exec` runs code exactly when the prescan succeeds and `main` is stored; otherwise it reports one or two errors, the second being the missing `main` |
| Engine.CallThenReturnRestartsCaller | src/sivm.hpp:232-246 | a bare-name call pushes the callee's frame over the unchanged caller frame, and the callee's end re-enters the caller's range from its stored start |
| Engine.JmpThenReturnResumes | src/sivm.hpp:626-632 | after `jmp`, the callee's end re-enters the caller at the read position just after `jmp` |
| Engine.NameBeforeRefIsKept | src/sivm.hpp:217-226 | a name followed by `ref`, `dref` or `jmp` stays on the stack as a name, with the reader put back just after it |
| Engine.IfChoosesBranch | src/sivm.hpp:266-290 | true runs the if branch, up to the start of `else` when there is one, over the code after `end`; false queues the code after `end` and, over it, the else branch if any |
| Engine.IfWithoutRecordIsSkipped | src/sivm.hpp:266-271 | `if` with no stored conditional at its position only moves on |
| Engine.RefThenRead | src/sivm.hpp:216-251 | after `v x ref`, `x` is bound to `v`, every other name is unchanged, and a later bare `x` pushes `v` |
| Engine.DrefKeepsItsName | src/sivm.hpp:676-704 | after `dref` the name is still bound to its old value, and every name still bound has its old value |
| Engine.PrescanErrorRejects | src/sivm.hpp:850-858 | a prescan error stops `exec` before any code runs and is the first error reported |
| Engine.MissingMainRejects | src/sivm.hpp:850-856 | a clean prescan without `main` reports exactly "Expected a main procedure." |
| AsWritten.CopyAsWritten | src/sivm.hpp:172-182 | the copy as written changes a value exactly when it is `false`, into `true`; it keeps every value's type, and every Boolean it gives is `true` |
| AsWritten.CopyAsWrittenIdempotent | src/sivm.hpp:172-182 | copying a copy changes nothing more, so copying twice, as `rotate` does, is copying once |
| AsWritten.CopyAll | src/sivm.hpp:535-553 | copying a sequence copies each of its values in place |
| AsWritten.NotAsWritten | src/sivm.hpp:327-345 | `not` as written fails exactly on an empty stack |
| AsWritten.DupAsWritten | src/sivm.hpp:525-533 | `dup` as written keeps the stack beneath the new top |
| AsWritten.EqualAsWritten | src/sivm.hpp:784-822 | `eq` as written fails exactly with fewer than two values |
| AsWritten.NotOfBooleanAsWritten | src/sivm.hpp:327-345 | as written, `not` of any Boolean is `false`; as intended it is the negation |
| AsWritten.FalseNotCounterexample | src/sivm.hpp:172-182 | `false not` gives `false` as written and `true` as intended |
| AsWritten.FalseDupCounterexample | src/sivm.hpp:525-533 | `false dup` leaves `false true` as written and `false false` as intended |
| AsWritten.BooleansEqualAsWritten | src/sivm.hpp:784-822 | as written, any two Booleans are `eq`; as intended, `eq` tells them apart |
| AsWritten.TrueFalseEqCounterexample | src/sivm.hpp:784-822 | `true false eq` gives `true` as written and `false` as intended |
| AsWritten.AsWrittenAgreesAwayFromBooleans | src/sivm.hpp:172-182 | where no Boolean is copied, the as-written handlers agree with the intended ones |
| AsWritten.RotateAsWritten | src/sivm.hpp:535-553 | `rotate` as written fails exactly on an empty stack; otherwise it reverses the stack with every value copied |
| AsWritten.FalseRotateCounterexample | src/sivm.hpp:535-553 | `false rotate` leaves `true` as written and `false` as intended |
| AsWritten.MkArrAsWritten | src/sivm.hpp:351-380 | `mkarr` as written fails exactly where the intended handler does; on success it makes the same array with every element copied |
| AsWritten.FalseMkArrCounterexample | src/sivm.hpp:351-380 | `false 1 mkarr` makes `[true]` as written and `[false]` as intended |
| AsWritten.ArrPushAsWritten | src/sivm.hpp:431-446 | `arrpush` as written fails exactly where the intended handler does; on success it appends a copy of the top to the array |
| AsWritten.PushOntoEmpty | src/sivm.hpp:431-446 | `arrpush` onto an empty array makes the one-element array of the pushed value |
| AsWritten.FalseArrPushCounterexample | src/sivm.hpp:431-446 | pushing `false` onto an empty array makes `[true]` as written and `[false]` as intended |
| AsWritten.RefStepAsWritten | src/sivm.hpp:643-675 | `ref` as written succeeds and fails exactly when the intended `ref` does, with the same error; on success it pops both and binds the name to the copy of the value beneath it |
| AsWritten.RefStepAgrees | src/sivm.hpp:643-675 | unless the value beneath the name is `false`, `ref` as written is the intended `ref` |
| AsWritten.IdentifierStepAsWritten | src/sivm.hpp:216-251 | an identifier step as written fails exactly as the intended one; on success reader, frames and table agree and the stacks differ at most in a copied top; reading a variable pushes the copy of its value on the old stack |
| AsWritten.IdentifierStepAgrees | src/sivm.hpp:216-251 | unless the name is a variable bound to `false`, the identifier step as written is the intended one |
| AsWritten.FalseRefThenReadCounterexample | src/sivm.hpp:216-251 | after `false x ref`, a bare `x` pushes `true` as written, where the intended step pushes `false` |

## Findings

| source | as written | input that shows it | evidently intended | confidence | as-written member | corrected member |
|---|---|---|---|---|---|---|
| src/sivm.hpp:176-177 | the Boolean copy is built from the value's address (`new bool(&*(bool*)val)`), so every copied Boolean is `true` | `false not` leaves `false`; `true false eq` leaves `true`; `false dup` leaves `false true` | copy the Boolean's value, as the number and string cases do | high, from reading the code; not executed | AsWritten.FalseNotCounterexample | Instructions.NotNot |
| src/sivm.hpp:176-177 | every copied Boolean is `true`, so `eq` cannot tell Booleans apart | `true false eq` leaves `true` | `eq` compares the Booleans' values | high, from reading the code; not executed | AsWritten.TrueFalseEqCounterexample | Instructions.EqualProperties |
| src/sivm.hpp:535-553 | `rotate` pushes copies of copies, so every Boolean it moves comes back `true` | `false rotate` leaves `true` | `rotate` only reverses the stack | high, from reading the code; not executed | AsWritten.FalseRotateCounterexample | Instructions.RotateTwice |
| src/sivm.hpp:351-380 | `mkarr` stores a copy of each element, so every Boolean in a new array is `true` | `false 1 mkarr` makes `[true]` | the array holds the values as they were | high, from reading the code; not executed | AsWritten.FalseMkArrCounterexample | Instructions.MkArrThenArrAt |
| src/sivm.hpp:431-446 | `arrpush` appends a copy of the top, so a pushed Boolean is `true` | `[] false arrpush` makes `[true]` | the pushed value as it was | high, from reading the code; not executed | AsWritten.FalseArrPushCounterexample | Instructions.ArrPushThenArrPop |
| src/sivm.hpp:643-675 | `ref` binds a copy, and the variable read at line 249 pushes another copy, so a stored Boolean reads back `true` | `false x ref x` pushes `true` | the value that was bound | high, from reading the code; not executed | AsWritten.FalseRefThenReadCounterexample | Engine.RefThenRead |

The rest of the model copies values unchanged. That is what
`Instructions.Not`, `Instructions.Dup`, `Instructions.Equal`,
`Instructions.Rotate`, `Instructions.MkArr` and `Instructions.ArrPush` do,
what `Engine.RefStep` binds, and what `Engine.IdentifierStep` pushes when
it reads a variable.

## Left out

- **Output.** What `print`/`println` write, the `ERROR:<line>:` prefix and
  the `[Near: …]` suffix of error reports, and the warning `new_region`
  prints are not modelled. Errors are values of `Values.Error`, and the
  line bias of frames is carried but not used.
- **Floating point.** Numbers are exact reals. IEEE rounding, overflow and
  NaN are not modelled, and neither is the `std::to_string` formatting of
  numbers in error messages.
- **`std::stod` exceptions.** A number literal with more than one leading
  sign matches the reader's pattern, but `std::stod` throws on it and
  nothing catches the exception. `Lexer.NumberValue` gives no value for
  such literals, and the engine reports `Undefined` when it reaches one.
  `std::stod` also throws when the value is out of range, on overflow
  (`1e999`) and on underflow (`1e-400`); numbers are exact reals here, so
  the model gives those literals their exact value instead.
- Prescan.RunPrescan: the source's prescan reads with the same
  `SILex_Read`, which converts every number token it meets, so a literal
  with two leading signs anywhere in the text (`proc main end --5`), or an
  out-of-range one such as `1e999` or `1e-400`, aborts the program during
  the prescan. The model's prescan does not convert number tokens: it
  scans past such a literal, and `Engine.Execute` goes on to run `main`.
- **Undefined behaviour.** The source reads a value it never collected in
  `and`/`or` unless the connective short-circuits on the top, and calls
  `pop_back` on an empty array in `arrpop`. `jmp` casts any binding to a
  procedure, and a record that is not a value can be copied. Each of these becomes an `Undefined`/`Undef` outcome rather than a
  guess at what the program does.
- **Array aliasing.** Arrays are immutable sequences. In the source, an
  array's copies share element pointers, `eq` on arrays compares those
  pointers, and `arrpush`/`arrpop` mutate in place. `Instructions.Equal`
  compares arrays by value.
- Instructions.Equal: the source stores the result of comparing two
  same-typed values through the address of a local variable that goes out
  of scope at the end of the handler. The model pushes the value the code
  computed.
- Values.Ident: the source's copy of a name is a null pointer, which
  the handler that receives it then dereferences. The model's copy keeps
  the name. A name stays on the stack when the next token's text is `ref`,
  `dref` or `jmp`, whatever its kind, so `a "ref"` leaves the name beneath
  a string, where `dup`, `rotate`, `mkarr`, `arrpush` or `ref` can copy it.
- Instructions.StrAt: program text and strings are sequences of
  characters with one character per byte. The source indexes the bytes of
  a `std::string`, which differ from characters for multi-byte text.
- Lexer.MantissaValue: its contract states only that the value is not
  negative. `Lexer.MantissaOfPoint` and `Lexer.MantissaOfDigits` state the
  value itself.
- Lexer.NumberValue: its contract states only when a value exists.
  `Lexer.NumberValueParts` states the value. Out-of-range literals such as
  `1e999` and `1e-400`, on which `std::stod` throws, get a value.
- Instructions.Rotate: uses the intended copy, the identity. As written,
  every Boolean it moves comes back `true` (`AsWritten.RotateAsWritten`).
- Instructions.MkArr: uses the intended copy. As written, every Boolean
  in the new array is `true` (`AsWritten.MkArrAsWritten`).
- Instructions.ArrPush: uses the intended copy. As written, a pushed
  Boolean is `true` (`AsWritten.ArrPushAsWritten`).
- Engine.RefStep: binds the value itself. As written, it binds a copy, so
  a bound Boolean is `true` (`AsWritten.RefStepAsWritten`).
- Engine.IdentifierStep: pushes a variable's value itself. As written, it
  pushes a copy, so a Boolean read back is `true`
  (`AsWritten.IdentifierStepAsWritten`).
- **Integer width.** Positions are unbounded naturals rather than
  `unsigned long long`, and the 32-bit `int` lengths in the tree are
  unbounded too. No SILang text is long enough for either to wrap.
- **Memory.** Memory exhaustion (`std::bad_alloc`), the freeing of
  values, and the REPL's `feed` of several inputs into one machine are not
  modelled. Neither is the `VM isn't initialized` path. The command-line
  driver `src/silang.cpp` is not part of this model.
- **`sqrt`.** It is a keyword with no handler and is passed over, as in
  the source.
- Engine.Run: the run is bounded by fuel, because a SILang program need
  not terminate. A run that is still going when the fuel ends is reported
  as `Running`.

=== FILE: aswritten.dfy ===
/**
 * `SIVM_CopyValue` as the source writes it. Its Boolean case allocates a
 * `bool` from the ADDRESS of the value rather than from the value, and a
 * non-null pointer converts to `true`: every copied Boolean comes out
 * `true`. The handlers that copy (`not`, `dup`, `eq`/`neq`, `rotate`,
 * `mkarr`, `arrpush`, `ref` and the read of a variable) therefore see or
 * store `true` wherever a `false` was.
 *
 * The rest of the model uses the intended copy, the identity on values,
 * which is what the handlers in `Instructions` and `Engine` compute.
 */
module AsWritten {
  import opened Values
  import opened LengthTree
  import opened Instructions
  import Lexer
  import opened Engine

  /** The copy as written: it changes exactly `false`, into `true`, and keeps every type. */
  function CopyAsWritten(v: Value): (c: Value)
    ensures c == v <==> v != Bool(false)
    ensures Tag(c) == Tag(v)
    ensures c.Bool? ==> c.b
  {
    if v.Bool? then Bool(true) else v
  }

  /** Copying a copy changes nothing more, so the double copy of `rotate` is one copy. */
  lemma CopyAsWrittenIdempotent(v: Value)
    ensures CopyAsWritten(CopyAsWritten(v)) == CopyAsWritten(v)
  {
  }

  /** Every value of a sequence through the copy as written. */
  function CopyAll(st: seq<Value>): (c: seq<Value>)
    ensures |c| == |st| && forall i :: 0 <= i < |st| ==> c[i] == CopyAsWritten(st[i])
  {
    if |st| == 0 then [] else CopyAll(st[..|st| - 1]) + [CopyAsWritten(st[|st| - 1])]
  }

  /** `not` over the copy as written. */
  function NotAsWritten(st: seq<Value>): (r: StackResult)
    ensures r.Done? <==> 0 < |st|
    ensures r.Fault? ==> r.error == StackEmpty
  {
    if |st| == 0 then Fault(StackEmpty) else Not(Drop(st, 1) + [CopyAsWritten(Top(st))])
  }

  /** `dup` over the copy as written. */
  function DupAsWritten(st: seq<Value>): (r: StackResult)
    ensures r.Done? <==> 0 < |st|
    ensures r.Fault? ==> r.error == StackEmpty
    ensures r.Done? ==> |r.stack| == |st| + 1 && r.stack[..|st|] == st
  {
    if |st| == 0 then Fault(StackEmpty) else Done(st + [CopyAsWritten(Top(st))])
  }

  /** `eq`/`neq` over the copies as written. */
  function EqualAsWritten(negate: bool, st: seq<Value>): (r: StackResult)
    ensures r.Fault? <==> |st| < 2
    ensures r.Fault? ==> r.error == StackEmpty
  {
    if |st| < 2 then Fault(StackEmpty)
    else Equal(negate, Drop(st, 2) + [CopyAsWritten(Below(st)), CopyAsWritten(Top(st))])
  }

  /** As written, `not` of any Boolean is `false`; the intended `not` negates it. */
  lemma NotOfBooleanAsWritten(rest: seq<Value>, b: bool)
    ensures NotAsWritten(rest + [Bool(b)]) == Done(rest + [Bool(false)])
    ensures Not(rest + [Bool(b)]) == Done(rest + [Bool(!b)])
  {
    var st := rest + [Bool(b)];
    assert Drop(st, 1) == rest;
    assert Drop(Drop(st, 1) + [Bool(true)], 1) == rest;
  }

  /** `false not` gives `false` as written, `true` as intended. */
  lemma FalseNotCounterexample()
    ensures NotAsWritten([Bool(false)]) == Done([Bool(false)])
    ensures Not([Bool(false)]) == Done([Bool(true)])
  {
    var st: seq<Value> := [Bool(false)];
    assert Drop(st, 1) == [] && Top(st) == Bool(false);
    assert NotAsWritten(st) == Not([Bool(true)]);
    assert Drop([Bool(true)], 1) == [];
  }

  /** `false dup` leaves `false true` as written; the intended `dup` leaves `false false`. */
  lemma FalseDupCounterexample()
    ensures DupAsWritten([Bool(false)]) == Done([Bool(false), Bool(true)])
    ensures Dup([Bool(false)]) == Done([Bool(false), Bool(false)])
  {
  }

  /** As written, any two Booleans are `eq`; the intended `eq` tells them apart. */
  lemma BooleansEqualAsWritten(rest: seq<Value>, a: bool, b: bool)
    ensures EqualAsWritten(false, rest + [Bool(a), Bool(b)]) == Done(rest + [Bool(true)])
    ensures Equal(false, rest + [Bool(a), Bool(b)]) == Done(rest + [Bool(a == b)])
  {
    var st := rest + [Bool(a), Bool(b)];
    assert Drop(st, 2) == rest;
    assert Drop(rest + [Bool(true), Bool(true)], 2) == rest;
  }

  /** `true false eq` gives `true` as written, `false` as intended. */
  lemma TrueFalseEqCounterexample()
    ensures EqualAsWritten(false, [Bool(true), Bool(false)]) == Done([Bool(true)])
    ensures Equal(false, [Bool(true), Bool(false)]) == Done([Bool(false)])
  {
    BooleansEqualAsWritten([], true, false);
  }

  /** On stacks with no Boolean where the copies are taken, the copy as written is harmless. */
  lemma AsWrittenAgreesAwayFromBooleans(st: seq<Value>)
    requires 0 < |st| && !Top(st).Bool?
    ensures NotAsWritten(st) == Not(st)
    ensures DupAsWritten(st) == Dup(st)
    ensures 1 < |st| && !Below(st).Bool? ==> EqualAsWritten(false, st) == Equal(false, st)
  {
    assert Drop(st, 1) + [Top(st)] == st;
    if 1 < |st| && !Below(st).Bool? {
      assert Drop(st, 2) + [Below(st), Top(st)] == st;
    }
  }

  // ---------------------------------------------------------------------
  // The other handlers that copy
  // ---------------------------------------------------------------------

  /** `rotate` as written: every value is copied when popped and again when pushed back. */
  function RotateAsWritten(st: seq<Value>): (r: StackResult)
    ensures r.Done? <==> 0 < |st|
    ensures r.Fault? ==> r.error == StackEmpty
    ensures r.Done? ==>
      |r.stack| == |st| && forall i :: 0 <= i < |st| ==> r.stack[i] == CopyAsWritten(st[|st| - 1 - i])
  {
    if |st| == 0 then Fault(StackEmpty)
    else
      var c := CopyAll(CopyAll(st));
      forall i | 0 <= i < |st|
        ensures c[i] == CopyAsWritten(st[i])
      {
        CopyAsWrittenIdempotent(st[i]);
      }
      Rotate(c)
  }

  /** `false rotate` leaves `true` as written and `false` as intended. */
  lemma FalseRotateCounterexample()
    ensures RotateAsWritten([Bool(false)]) == Done([Bool(true)])
    ensures Rotate([Bool(false)]) == Done([Bool(false)])
  {
    var st := [Bool(false)];
    var r := RotateAsWritten(st);
    assert |r.stack| == 1 && r.stack[0] == CopyAsWritten(st[0]);
    assert r.stack == [Bool(true)];
    var r' := Rotate(st);
    assert |r'.stack| == 1 && r'.stack[0] == st[0];
    assert r'.stack == [Bool(false)];
  }

  /** `mkarr` as written: each element is copied into the new array. */
  function MkArrAsWritten(st: seq<Value>): (r: StackResult)
    ensures r.Done? <==> MkArr(st).Done?
    ensures r.Fault? ==> r == MkArr(st)
    ensures r.Done? ==>
      && |r.stack| == |MkArr(st).stack| && Drop(r.stack, 1) == Drop(MkArr(st).stack, 1)
      && Top(r.stack).Arr? && |Top(r.stack).elems| == |Top(MkArr(st).stack).elems|
      && forall i :: 0 <= i < |Top(r.stack).elems| ==>
           Top(r.stack).elems[i] == CopyAsWritten(Top(MkArr(st).stack).elems[i])
  {
    match MkArr(st)
    case Done(st') => Done(Drop(st', 1) + [Arr(CopyAll(Top(st').elems))])
    case r => r
  }

  /** `false 1 mkarr` makes `[true]` as written and `[false]` as intended. */
  lemma FalseMkArrCounterexample()
    ensures MkArrAsWritten([Bool(false), Num(1.0)]) == Done([Arr([Bool(true)])])
    ensures MkArr([Bool(false), Num(1.0)]) == Done([Arr([Bool(false)])])
  {
    var st := [Bool(false), Num(1.0)];
    assert Top(st) == Num(1.0);
    assert IsCount(1.0) && CountOf(1.0) == 1;
    var rest := Drop(st, 1);
    assert rest == [Bool(false)] && rest[0..] == rest;
    assert Reverse(rest) == [Bool(false)] by {
      assert rest[..0] == [];
    }
    assert Drop(rest, 1) == [];
    assert MkArr(st) == Done([Arr([Bool(false)])]);
    var a := [Arr([Bool(false)])];
    assert Drop(a, 1) == [] && Top(a).elems == [Bool(false)];
    assert CopyAll([Bool(false)]) == [Bool(true)];
  }

  /** `arrpush` as written: the pushed value is a copy of the top. */
  function ArrPushAsWritten(st: seq<Value>): (r: StackResult)
    ensures r.Done? <==> ArrPush(st).Done?
    ensures r.Fault? ==> r == ArrPush(st)
    ensures r.Done? ==>
      && 1 < |st| && 0 < |r.stack|
      && Drop(r.stack, 1) == Drop(st, 2) && Top(r.stack) == Arr(Below(st).elems + [CopyAsWritten(Top(st))])
  {
    if |st| < 2 then ArrPush(st)
    else
      var st' := Drop(st, 1) + [CopyAsWritten(Top(st))];
      assert Below(st') == Below(st) && Drop(st', 2) == Drop(st, 2);
      ArrPush(st')
  }

  /** Pushing a value onto an empty array, as intended. */
  lemma PushOntoEmpty(v: Value)
    ensures ArrPush([Arr([]), v]) == Done([Arr([v])])
  {
    var st := [Arr([]), v];
    assert Below(st) == Arr([]) && Top(st) == v && Drop(st, 2) == [];
    assert [] + [v] == [v];
  }

  /** Pushing `false` onto an empty array gives `[true]` as written and `[false]` as intended. */
  lemma FalseArrPushCounterexample()
    ensures ArrPushAsWritten([Arr([]), Bool(false)]) == Done([Arr([Bool(true)])])
    ensures ArrPush([Arr([]), Bool(false)]) == Done([Arr([Bool(false)])])
  {
    var st := [Arr([]), Bool(false)];
    PushOntoEmpty(Bool(false));
    PushOntoEmpty(Bool(true));
    assert Drop(st, 1) + [CopyAsWritten(Top(st))] == [Arr([]), Bool(true)];
  }

  /** `ref` as written: the name is bound to a copy of the value beneath it. */
  function RefStepAsWritten(s: State, r1: Lexer.Reader): (o: Outcome)
    requires Valid(s) && Fetched(s.reader, r1)
    ensures o.Running? <==> RefStep(s, r1).Running?
    ensures o.Failed? <==> RefStep(s, r1).Failed?
    ensures o.Failed? ==> o.error == RefStep(s, r1).error
    ensures o.Running? ==>
      1 < |s.stack| && Top(s.stack).Ident? && o.state.stack == Drop(s.stack, 2) &&
      Get(o.state.store, Top(s.stack).name) == Some(Var(CopyAsWritten(Below(s.stack))))
  {
    if |s.stack| < 2 then RefStep(s, r1)
    else
      var s' := s.(stack := Drop(s.stack, 2) + [CopyAsWritten(Below(s.stack)), Top(s.stack)]);
      assert Top(s'.stack) == Top(s.stack) && Below(s'.stack) == CopyAsWritten(Below(s.stack));
      assert Drop(s'.stack, 2) == Drop(s.stack, 2);
      RefStep(s', r1)
  }

  /** Away from a `false` beneath the name, `ref` as written is the intended `ref`. */
  lemma RefStepAgrees(s: State, r1: Lexer.Reader)
    requires Valid(s) && Fetched(s.reader, r1)
    requires 1 < |s.stack| ==> Below(s.stack) != Bool(false)
    ensures RefStepAsWritten(s, r1) == RefStep(s, r1)
  {
    if 1 < |s.stack| {
      assert Drop(s.stack, 2) + [Below(s.stack), Top(s.stack)] == s.stack;
    }
  }

  /**
   * Two stacks that are equal, or differ only in that the top of the first
   * is the as-written copy of the top of the second.
   */
  predicate TopCopied(a: seq<Value>, b: seq<Value>) {
    a == b || (0 < |a| == |b| && Drop(a, 1) == Drop(b, 1) && Top(a) == CopyAsWritten(Top(b)))
  }

  /** The read of a bare name as written: a variable's value is pushed through the copy. */
  function IdentifierStepAsWritten(s: State, r1: Lexer.Reader, r2: Lexer.Reader): (o: Outcome)
    requires Valid(s) && Fetched(s.reader, r1) && Fetched(r1, r2)
    ensures o.Running? <==> IdentifierStep(s, r1, r2).Running?
    ensures !o.Running? ==> o == IdentifierStep(s, r1, r2)
    ensures o.Running? ==>
      var i := IdentifierStep(s, r1, r2).state;
      o.state.reader == i.reader && o.state.frames == i.frames && o.state.store == i.store &&
      TopCopied(o.state.stack, i.stack)
    ensures !TakesName(r2.val) && Get(s.store, r1.val).Some? && Get(s.store, r1.val).value.Var? ==>
      o.Running? && 0 < |o.state.stack| && Drop(o.state.stack, 1) == s.stack &&
      Top(o.state.stack) == CopyAsWritten(Get(s.store, r1.val).value.value)
  {
    var o := IdentifierStep(s, r1, r2);
    var b := Get(s.store, r1.val);
    if !TakesName(r2.val) && b.Some? && b.value.Var? then
      Running(o.state.(stack := s.stack + [CopyAsWritten(b.value.value)]))
    else o
  }

  /** Away from a variable bound to `false`, the read as written is the intended read. */
  lemma IdentifierStepAgrees(s: State, r1: Lexer.Reader, r2: Lexer.Reader)
    requires Valid(s) && Fetched(s.reader, r1) && Fetched(r1, r2)
    requires Get(s.store, r1.val) != Some(Var(Bool(false)))
    ensures IdentifierStepAsWritten(s, r1, r2) == IdentifierStep(s, r1, r2)
  {
  }

  /**
   * `false x ref x`: as written, the stored value and the value read back
   * are both copies, so `x` reads as `true`; as intended it reads as `false`.
   */
  lemma FalseRefThenReadCounterexample(s: State, r1: Lexer.Reader, t1: Lexer.Reader, t2: Lexer.Reader)
    requires Valid(s) && Fetched(s.reader, r1)
    requires 1 < |s.stack| && Below(s.stack) == Bool(false)
    requires RefStepAsWritten(s, r1).Running?
    requires var s1 := RefStepAsWritten(s, r1).state;
      Fetched(s1.reader, t1) && Fetched(t1, t2) && t1.val == Top(s.stack).name && !TakesName(t2.val)
    ensures var s1 := RefStepAsWritten(s, r1).state;
      IdentifierStepAsWritten(s1, t1, t2).Running? &&
      IdentifierStepAsWritten(s1, t1, t2).state.stack == Drop(s.stack, 2) + [Bool(true)]
  {
    var s' := s.(stack := Drop(s.stack, 2) + [CopyAsWritten(Below(s.stack)), Top(s.stack)]);
    assert Top(s'.stack) == Top(s.stack) && Below(s'.stack) == Bool(true);
    assert Drop(s'.stack, 2) == Drop(s.stack, 2);
    RefThenRead(s', r1, t1, t2);
  }
}

=== FILE: decimal.dfy ===
/**
 * Decimal digit runs: the text `std::to_string` gives an unsigned offset
 * (used as the key of a conditional block) and the value of a digit run
 * (used when a numeric literal is converted).
 */
module Decimal {

  predicate IsDigit(c: char) {
    '0' <= c <= '9'
  }

  predicate AllDigits(s: string) {
    forall i :: 0 <= i < |s| ==> IsDigit(s[i])
  }

  function DigitValue(c: char): nat
    requires IsDigit(c)
  {
    c as int - '0' as int
  }

  function DigitChar(d: nat): (c: char)
    requires d < 10
    ensures IsDigit(c) && DigitValue(c) == d
  {
    ('0' as int + d) as char
  }

  /** Value of a run of decimal digits, most significant digit first. */
  function DigitsValue(s: string): nat
    requires AllDigits(s)
  {
    if |s| == 0 then 0 else DigitsValue(s[..|s| - 1]) * 10 + DigitValue(s[|s| - 1])
  }

  /** The decimal text of an offset, as `std::to_string` writes it. */
  function NatToString(n: nat): (s: string)
    ensures 0 < |s| && AllDigits(s)
    ensures |s| == 1 <==> n < 10
  {
    if n < 10 then [DigitChar(n)] else NatToString(n / 10) + [DigitChar(n % 10)]
  }

  /** Reading the decimal text back gives the offset: the text is an exact encoding. */
  lemma {:induction false} NatToStringRoundTrip(n: nat)
    ensures DigitsValue(NatToString(n)) == n
  {
    if n >= 10 {
      var s := NatToString(n);
      assert s[..|s| - 1] == NatToString(n / 10);
      NatToStringRoundTrip(n / 10);
    }
  }

  /** Distinct offsets never share a key. */
  lemma NatToStringInjective(a: nat, b: nat)
    ensures NatToString(a) == NatToString(b) ==> a == b
  {
    NatToStringRoundTrip(a);
    NatToStringRoundTrip(b);
  }
}

=== FILE: engine.dfy ===
/**
 * `SIVM_Exec`: replays byte ranges of the text through the reader, under a
 * stack of frames. The top frame is the range being replayed; the end of
 * its tokens pops it and restarts the new top frame's range from its
 * stored start.
 */
module Engine {
  import opened Values
  import opened LengthTree
  import opened Prescan
  import opened Instructions
  import Lexer

  /** A region [start, end) being replayed, with the line bias kept for error reports. */
  datatype Frame = Frame(start: nat, end: nat, line: nat)

  /** The interpreter between two tokens. The top frame is the last one. */
  datatype State = State(reader: Lexer.Reader, frames: seq<Frame>, stack: seq<Value>, store: Store)

  /**
   * What one step, or a bounded run, leads to: a state to go on from, a
   * normal halt when the last frame is done, a reported error, or an input
   * on which the source has undefined behaviour.
   */
  datatype Outcome =
    | Running(state: State)
    | Halted(state: State)
    | Failed(error: Error)
    | Undefined(reason: string)

  /**
   * A state the engine can step from: a consistent reader, at least one
   * frame, and well-formed records in the store.
   */
  ghost predicate Valid(s: State) {
    s.reader.Valid() && 0 < |s.frames| && StoreWithin(s.store, |s.reader.text|)
  }

  function TopFrame(s: State): Frame
    requires 0 < |s.frames|
  {
    s.frames[|s.frames| - 1]
  }

  /** What the engine relies on about the reader r1 obtained by reading from r. */
  predicate Fetched(r: Lexer.Reader, r1: Lexer.Reader) {
    && r1.Valid() && r1.text == r.text && r1.limit == r.limit
    && (r1.kind.Number? ==> Lexer.NumPattern(r1.val))
  }

  lemma ReadFetched(r: Lexer.Reader)
    requires r.Valid()
    ensures Fetched(r, Lexer.Read(r))
  {
  }

  /** Re-point the reader at the top frame's region. */
  function Enter(r: Lexer.Reader, frames: seq<Frame>): (r': Lexer.Reader)
    requires 0 < |frames|
    ensures r'.text == r.text && (r.Valid() ==> r'.Valid())
  {
    Lexer.SetRegion(r, frames[|frames| - 1].start, frames[|frames| - 1].end)
  }

  /**
   * The outcome of a handler that only touches the stack: the step goes on
   * exactly when the handler succeeds, with only the reader and the stack
   * changed, and a handler's error is the step's error.
   */
  function Lift(s: State, r1: Lexer.Reader, res: StackResult): (o: Outcome)
    ensures !o.Halted?
    ensures o.Running? <==> res.Done?
    ensures o.Failed? <==> res.Fault?
    ensures o.Failed? ==> o.error == res.error
    ensures Valid(s) && Fetched(s.reader, r1) && o.Running? ==>
      && Valid(o.state) && o.state.stack == res.stack
      && o.state.frames == s.frames && o.state.store == s.store
  {
    match res
    case Done(st) => Running(s.(reader := r1, stack := st))
    case Fault(e) => Failed(e)
    case Undef(why) => Undefined(why)
  }

  // ---------------------------------------------------------------------
  // End of a region
  // ---------------------------------------------------------------------

  /**
   * End of the top region: pop its frame; restart the new top frame's
   * region from its stored start, or halt when no frame is left.
   */
  function EndOfRegion(s: State, r1: Lexer.Reader): (o: Outcome)
    requires Valid(s) && Fetched(s.reader, r1)
    ensures |s.frames| == 1 <==> o.Halted?
    ensures o.Halted? ==> o.state.frames == [] && o.state.stack == s.stack
    ensures o.Running? ==>
      && o.state.frames == s.frames[..|s.frames| - 1]
      && o.state.reader == Lexer.SetRegion(r1, TopFrame(o.state).start, TopFrame(o.state).end)
      && o.state.stack == s.stack && o.state.store == s.store
      && Valid(o.state)
    ensures !o.Failed? && !o.Undefined?
  {
    var rest := s.frames[..|s.frames| - 1];
    if |rest| == 0 then Halted(s.(reader := r1, frames := []))
    else Running(s.(reader := Enter(r1, rest), frames := rest))
  }

  // ---------------------------------------------------------------------
  // Identifiers
  // ---------------------------------------------------------------------

  /** The keywords that take a raw name from the stack. */
  predicate TakesName(word: string) {
    word == "ref" || word == "dref" || word == "jmp"
  }

  /**
   * An identifier token r1, with r2 the token after it. The name is pushed
   * and the next token's text is peeked; the reader is put back just after
   * the identifier. If the peeked text is ref/dref/jmp the name stays on the
   * stack. Otherwise it is resolved at once: a procedure replaces the
   * placeholder by a call frame (the caller's frame is left as it was); a
   * variable replaces it by its value.
   */
  function IdentifierStep(s: State, r1: Lexer.Reader, r2: Lexer.Reader): (o: Outcome)
    requires Valid(s) && Fetched(s.reader, r1) && Fetched(r1, r2)
    ensures o.Running? ==> Valid(o.state) && o.state.store == s.store
    ensures !o.Halted?
    ensures TakesName(r2.val) ==>
      o.Running? && o.state.stack == s.stack + [Ident(r1.val)] && o.state.frames == s.frames
    ensures !TakesName(r2.val) && Get(s.store, r1.val).None? ==> o == Failed(UnknownRef(r1.val))
    ensures !TakesName(r2.val) && Get(s.store, r1.val).Some? && Get(s.store, r1.val).value.Var? ==>
      && o.Running? && o.state.stack == s.stack + [Get(s.store, r1.val).value.value]
      && o.state.frames == s.frames
    ensures !TakesName(r2.val) && Get(s.store, r1.val).Some? && Get(s.store, r1.val).value.ProcB? ==>
      var p := Get(s.store, r1.val).value.proc;
      o.Running? && o.state.stack == s.stack && o.state.frames == s.frames + [Frame(p.start, p.end, p.line)]
  {
    var name := r1.val;
    var back := Lexer.SetRegion(r2, r1.cursor, TopFrame(s).end);
    if TakesName(r2.val) then Running(s.(reader := back, stack := s.stack + [Ident(name)]))
    else
      match Get<Binding>(s.store, name)
      case None => Failed(UnknownRef(name))
      case Some(ProcB(p)) =>
        var frames := s.frames + [Frame(p.start, p.end, p.line)];
        Running(s.(reader := Enter(back, frames), frames := frames))
      case Some(Var(v)) => Running(s.(reader := back, stack := s.stack + [v]))
      case Some(_) => Undefined("copies a record that is not a value")
  }

  // ---------------------------------------------------------------------
  // if
  // ---------------------------------------------------------------------

  /**
   * The frames after `if` finds its record c with the condition b, the top
   * frame's region ending at tmp: the top frame is replaced by the code
   * after `end` (3 characters on when true, 4 when false), and the branch
   * to run is pushed on it.
   */
  function Branch(rest: seq<Frame>, c: IfElse, b: bool, tmp: nat): (frames: seq<Frame>)
    requires c.elseStart == 0 || 4 <= c.elseStart
    ensures |rest| < |frames|
  {
    if b then
      rest + [Frame(c.end + 3, tmp, c.line),
              Frame(c.ifStart, if c.elseStart == 0 then c.end else c.elseStart - 4, c.line)]
    else if c.elseStart != 0 then
      rest + [Frame(c.end + 4, tmp, c.line), Frame(c.elseStart, c.end, c.line)]
    else
      rest + [Frame(c.end + 4, tmp, c.line)]
  }

  /**
   * `if`: the Boolean on top is read and left there. The conditional
   * recorded under the read position's decimal text, if any, chooses the
   * frames to run; with no record `if` does nothing.
   */
  function IfStep(s: State, r1: Lexer.Reader): (o: Outcome)
    requires Valid(s) && Fetched(s.reader, r1)
    ensures o.Running? ==> Valid(o.state) && o.state.stack == s.stack && o.state.store == s.store
    ensures o.Failed? <==> |s.stack| == 0 || !Top(s.stack).Bool?
    ensures |s.stack| == 0 ==> o == Failed(StackEmpty)
    ensures 0 < |s.stack| && !Top(s.stack).Bool? ==> o == Failed(ExpectedVal("<boolean>", TypeName(Top(s.stack))))
    ensures !o.Halted?
  {
    if |s.stack| == 0 then Failed(StackEmpty)
    else if !Top(s.stack).Bool? then Failed(ExpectedVal("<boolean>", TypeName(Top(s.stack))))
    else
      var key := CondKey(r1.cursor);
      match Get<Binding>(s.store, key)
      case None => Running(s.(reader := r1))
      case Some(Cond(c)) =>
        assert BindingWithin(Cond(c), |s.reader.text|);
        var frames := Branch(s.frames[..|s.frames| - 1], c, Top(s.stack).b, TopFrame(s).end);
        Running(s.(reader := Enter(r1, frames), frames := frames))
      case Some(_) => Undefined("reads a record that is not a conditional")
  }

  // ---------------------------------------------------------------------
  // jmp, ref, dref
  // ---------------------------------------------------------------------

  /**
   * `jmp`: pop the name on top; the current frame will resume at the read
   * position just after `jmp`, and the procedure's frame is pushed. The
   * record is not checked to be a procedure before it is used as one.
   */
  function JmpStep(s: State, r1: Lexer.Reader): (o: Outcome)
    requires Valid(s) && Fetched(s.reader, r1)
    ensures o.Running? ==> Valid(o.state) && 0 < |s.stack| && o.state.stack == Drop(s.stack, 1) && o.state.store == s.store
    ensures |s.stack| == 0 ==> o == Failed(StackEmpty)
    ensures 0 < |s.stack| && !Top(s.stack).Ident? ==> o == Failed(ExpectedVal("<identifier>", TypeName(Top(s.stack))))
    ensures 0 < |s.stack| && Top(s.stack).Ident? && Get(s.store, Top(s.stack).name).None? ==>
      o == Failed(UnknownProc(Top(s.stack).name))
    ensures 0 < |s.stack| && Top(s.stack).Ident? && Get(s.store, Top(s.stack).name).Some? ==>
      var b := Get(s.store, Top(s.stack).name).value;
      && (b.ProcB? ==>
            && o.Running?
            && o.state.frames ==
                 s.frames[..|s.frames| - 1] + [TopFrame(s).(start := r1.cursor), Frame(b.proc.start, b.proc.end, b.proc.line)])
      && (!b.ProcB? ==> o.Undefined?)
    ensures !o.Halted?
  {
    if |s.stack| == 0 then Failed(StackEmpty)
    else if !Top(s.stack).Ident? then Failed(ExpectedVal("<identifier>", TypeName(Top(s.stack))))
    else
      var name := Top(s.stack).name;
      match Get<Binding>(s.store, name)
      case None => Failed(UnknownProc(name))
      case Some(ProcB(p)) =>
        var n := |s.frames|;
        var frames := s.frames[..n - 1] + [TopFrame(s).(start := r1.cursor), Frame(p.start, p.end, p.line)];
        Running(State(Enter(r1, frames), frames, Drop(s.stack, 1), s.store))
      case Some(_) => Undefined("uses a record that is not a procedure as one")
  }

  /**
   * `ref`: the name on top is bound to the value beneath it, creating the
   * binding or overwriting it in place; a procedure's name is refused. Both
   * are popped.
   */
  function RefStep(s: State, r1: Lexer.Reader): (o: Outcome)
    requires Valid(s) && Fetched(s.reader, r1)
    ensures o.Running? ==> Valid(o.state) && 1 < |s.stack| && o.state.stack == Drop(s.stack, 2) && o.state.frames == s.frames
    ensures |s.stack| < 2 ==> o == Failed(StackEmpty)
    ensures 1 < |s.stack| && !Top(s.stack).Ident? ==> o == Failed(ExpectedVal("<identifier>", TypeName(Top(s.stack))))
    ensures 1 < |s.stack| && Top(s.stack).Ident? && Get(s.store, Top(s.stack).name).Some? &&
            Get(s.store, Top(s.stack).name).value.ProcB? ==>
      o == Failed(Message("Cannot use procedure's name for refering."))
    ensures 1 < |s.stack| && Top(s.stack).Ident? &&
            !(Get(s.store, Top(s.stack).name).Some? && Get(s.store, Top(s.stack).name).value.ProcB?) ==>
      o.Running? && Get(o.state.store, Top(s.stack).name) == Some(Var(Below(s.stack)))
    ensures !o.Halted? && !o.Undefined?
  {
    if |s.stack| < 2 then Failed(StackEmpty)
    else if !Top(s.stack).Ident? then Failed(ExpectedVal("<identifier>", TypeName(Top(s.stack))))
    else
      var name := Top(s.stack).name;
      var b := Var(Below(s.stack));
      match Get<Binding>(s.store, name)
      case None => Running(State(r1, s.frames, Drop(s.stack, 2), Insert(s.store, name, b)))
      case Some(ProcB(_)) => Failed(Message("Cannot use procedure's name for refering."))
      case Some(_) => Running(State(r1, s.frames, Drop(s.stack, 2), Assign(s.store, name, b)))
  }

  /**
   * `dref`: pop the name on top and run `delNode` on its node, which drops
   * one child subtree of that node and leaves the node itself bound.
   */
  function DrefStep(s: State, r1: Lexer.Reader): (o: Outcome)
    requires Valid(s) && Fetched(s.reader, r1)
    ensures o.Running? ==> Valid(o.state) && 0 < |s.stack| && o.state.stack == Drop(s.stack, 1) && o.state.frames == s.frames
    ensures |s.stack| == 0 ==> o == Failed(StackEmpty)
    ensures 0 < |s.stack| && !Top(s.stack).Ident? ==> o == Failed(ExpectedVal("<identifier>", TypeName(Top(s.stack))))
    ensures 0 < |s.stack| && Top(s.stack).Ident? && Get(s.store, Top(s.stack).name).None? ==>
      o == Failed(UnknownRef(Top(s.stack).name))
    ensures 0 < |s.stack| && Top(s.stack).Ident? && Get(s.store, Top(s.stack).name).Some? &&
            Get(s.store, Top(s.stack).name).value.ProcB? ==>
      o == Failed(Message("Cannot dereference a procedure."))
    ensures 0 < |s.stack| && Top(s.stack).Ident? && Get(s.store, Top(s.stack).name).Some? &&
            !Get(s.store, Top(s.stack).name).value.ProcB? ==>
      o.Running? && Get(o.state.store, Top(s.stack).name) == Get(s.store, Top(s.stack).name)
    ensures !o.Halted? && !o.Undefined?
  {
    if |s.stack| == 0 then Failed(StackEmpty)
    else if !Top(s.stack).Ident? then Failed(ExpectedVal("<identifier>", TypeName(Top(s.stack))))
    else
      var name := Top(s.stack).name;
      match Get<Binding>(s.store, name)
      case None => Failed(UnknownRef(name))
      case Some(ProcB(_)) => Failed(Message("Cannot dereference a procedure."))
      case Some(_) =>
        var store := DelNode(s.store, name);
        forall m | Get(store, m).Some?
          ensures BindingWithin(Get(store, m).value, |s.reader.text|)
        {
          DelKeepsSurvivors(s.store, name, |s.store.name|, m);
        }
        Running(State(r1, s.frames, Drop(s.stack, 1), store))
  }

  // ---------------------------------------------------------------------
  // Keywords
  // ---------------------------------------------------------------------

  /** The stack handler a keyword runs, for the keywords that only touch the stack. */
  function StackHandler(word: string, st: seq<Value>): Option<StackResult> {
    match word
    case "and" => Some(AndOr(true, st))
    case "or" => Some(AndOr(false, st))
    case "not" => Some(Not(st))
    case "mkarr" => Some(MkArr(st))
    case "arrat" => Some(ArrAt(st))
    case "arrconcat" => Some(ArrConcat(st))
    case "arrpush" => Some(ArrPush(st))
    case "arrpop" => Some(ArrPop(st))
    case "strconcat" => Some(StrConcat(st))
    case "strat" => Some(StrAt(st))
    case "dup" => Some(Dup(st))
    case "rotate" => Some(Rotate(st))
    case "swap" => Some(Swap(st))
    case "pop" => Some(Pop(st))
    case "print" => Some(Print(st))
    case "println" => Some(Print(st))
    case "add" => Some(Arith(Add, st))
    case "sub" => Some(Arith(Sub, st))
    case "mul" => Some(Arith(Mul, st))
    case "div" => Some(Arith(Div, st))
    case "mod" => Some(Arith(Mod, st))
    case "gt" => Some(Compare(Gt, st))
    case "lt" => Some(Compare(Lt, st))
    case "gteq" => Some(Compare(GtEq, st))
    case "lteq" => Some(Compare(LtEq, st))
    case "eq" => Some(Equal(false, st))
    case "neq" => Some(Equal(true, st))
    case _ => None
  }

  /**
   * A keyword token r1. `proc`, `end`, `else` and `sqrt` have no handler and
   * are passed over.
   */
  function KeywordStep(s: State, r1: Lexer.Reader): (o: Outcome)
    requires Valid(s) && Fetched(s.reader, r1)
    ensures o.Running? ==> Valid(o.state)
    ensures !o.Halted?
  {
    var word := r1.val;
    if word == "if" then IfStep(s, r1)
    else if word == "jmp" then JmpStep(s, r1)
    else if word == "ref" then RefStep(s, r1)
    else if word == "dref" then DrefStep(s, r1)
    else
      match StackHandler(word, s.stack)
      case Some(res) => Lift(s, r1, res)
      case None => Running(s.(reader := r1))
  }

  // ---------------------------------------------------------------------
  // One step and a bounded run
  // ---------------------------------------------------------------------

  /** One token, r1, read from the state's reader; r2 is the token after it. */
  function Exec(s: State, r1: Lexer.Reader, r2: Lexer.Reader): (o: Outcome)
    requires Valid(s) && Fetched(s.reader, r1) && Fetched(r1, r2)
    ensures o.Running? ==> Valid(o.state) && o.state.reader.text == s.reader.text
  {
    match r1.kind
    case Eof => EndOfRegion(s, r1)
    case Failure => Failed(Message(r1.val))
    case Number =>
      (match Lexer.NumberValue(r1.val)
       case None => Undefined("std::stod throws on the literal")
       case Some(x) => Running(s.(reader := r1, stack := s.stack + [Num(x)])))
    case Str => Running(s.(reader := r1, stack := s.stack + [Str(r1.val)]))
    case Bool => Running(s.(reader := r1, stack := s.stack + [Bool(r1.val == "true")]))
    case Identifier => IdentifierStep(s, r1, r2)
    case Keyword => KeywordStep(s, r1)
  }

  /** One turn of the `SIVM_Exec` loop. */
  function Step(s: State): (o: Outcome)
    requires Valid(s)
    ensures o.Running? ==> Valid(o.state) && o.state.reader.text == s.reader.text
  {
    var r1 := Lexer.Read(s.reader);
    ReadFetched(s.reader);
    ReadFetched(r1);
    Exec(s, r1, Lexer.Read(r1))
  }

  /** At most fuel turns; Running means the fuel ran out first. */
  function Run(s: State, fuel: nat): (o: Outcome)
    requires Valid(s)
    ensures o.Running? ==> Valid(o.state) && o.state.reader.text == s.reader.text
    decreases fuel
  {
    if fuel == 0 then Running(s)
    else
      match Step(s)
      case Running(s') => Run(s', fuel - 1)
      case o => o
  }

  // ---------------------------------------------------------------------
  // Running a program
  // ---------------------------------------------------------------------

  /** The end result of running a text: errors reported before execution, or the run's outcome. */
  datatype Verdict = Rejected(errors: seq<Error>) | Ran(outcome: Outcome)

  const NoMain := Message("Expected a main procedure.")

  /** The state `SIVM_Exec` starts in: main's region under one frame with line bias 1. */
  function Start(p: Scanned, main: Proc): (s: State)
  {
    State(Lexer.SetRegion(p.reader, main.start, main.end), [Frame(main.start, main.end, 1)], [], p.store)
  }

  /**
   * `exec`: prescan, then run `main`. A prescan error is reported, followed
   * by the missing-main report when no `main` is stored and the reader did
   * not stop on a failure token; execution then never starts.
   */
  function Execute(text: string, fuel: nat): (v: Verdict)
    ensures v.Rejected? <==> RunPrescan(text).error.Some? || Get(RunPrescan(text).store, "main").None?
    ensures v.Rejected? ==> 0 < |v.errors| <= 2
    ensures v.Rejected? && |v.errors| == 2 ==> v.errors[1] == NoMain
  {
    var p := RunPrescan(text);
    var main := Get(p.store, "main");
    if p.error.Some? then
      Rejected([p.error.value] + (if main.None? && !p.reader.kind.Failure? then [NoMain] else []))
    else if main.None? then Rejected([NoMain])
    else
      match main.value
      case ProcB(m) =>
        PrescanWithin(text);
        Ran(Run(Start(p, m), fuel))
      case _ => Ran(Undefined("uses a record that is not a procedure as main"))
  }

  // ---------------------------------------------------------------------
  // Properties
  // ---------------------------------------------------------------------

  /**
   * A procedure called by its bare name leaves the caller's frame as it
   * was, so when the callee's region is done the caller's region is entered
   * again from its stored start rather than from after the call.
   */
  lemma CallThenReturnRestartsCaller(s: State, r1: Lexer.Reader, r2: Lexer.Reader, p: Proc, r': Lexer.Reader)
    requires Valid(s) && Fetched(s.reader, r1) && Fetched(r1, r2)
    requires !TakesName(r2.val) && Get(s.store, r1.val) == Some(ProcB(p))
    requires IdentifierStep(s, r1, r2).Running?
    requires Fetched(IdentifierStep(s, r1, r2).state.reader, r')
    ensures IdentifierStep(s, r1, r2).state.frames == s.frames + [Frame(p.start, p.end, p.line)]
    ensures IdentifierStep(s, r1, r2).state.stack == s.stack
    ensures EndOfRegion(IdentifierStep(s, r1, r2).state, r') ==
      Running(IdentifierStep(s, r1, r2).state.(
        reader := Lexer.SetRegion(r', TopFrame(s).start, TopFrame(s).end), frames := s.frames))
  {
    var s1 := IdentifierStep(s, r1, r2).state;
    assert s1.frames[..|s1.frames| - 1] == s.frames;
  }

  /**
   * `jmp` stores the read position just after itself in the caller's frame,
   * so when the callee's region is done the caller goes on after the `jmp`.
   */
  lemma JmpThenReturnResumes(s: State, r1: Lexer.Reader, r': Lexer.Reader)
    requires Valid(s) && Fetched(s.reader, r1)
    requires JmpStep(s, r1).Running?
    requires Fetched(JmpStep(s, r1).state.reader, r')
    ensures
      var caller := TopFrame(s).(start := r1.cursor);
      var frames := s.frames[..|s.frames| - 1] + [caller];
      EndOfRegion(JmpStep(s, r1).state, r') ==
        Running(JmpStep(s, r1).state.(reader := Lexer.SetRegion(r', r1.cursor, TopFrame(s).end), frames := frames))
  {
    var s1 := JmpStep(s, r1).state;
    var frames := s.frames[..|s.frames| - 1] + [TopFrame(s).(start := r1.cursor)];
    assert s1.frames[..|s1.frames| - 1] == frames;
  }

  /**
   * A name followed by ref, dref or jmp is left on the stack as a name and
   * the reader is put back just after it; nothing else changes.
   */
  lemma NameBeforeRefIsKept(s: State, r1: Lexer.Reader, r2: Lexer.Reader)
    requires Valid(s) && Fetched(s.reader, r1) && Fetched(r1, r2)
    requires TakesName(r2.val)
    ensures IdentifierStep(s, r1, r2) ==
      Running(s.(reader := Lexer.SetRegion(r2, r1.cursor, TopFrame(s).end), stack := s.stack + [Ident(r1.val)]))
  {
  }

  /**
   * A true condition runs the `if` branch, up to the `else` token's start
   * when there is one, with the code after `end` queued beneath it; a false
   * one queues the code after `end` and, above it, the `else` branch if any.
   */
  lemma IfChoosesBranch(s: State, r1: Lexer.Reader, c: IfElse)
    requires Valid(s) && Fetched(s.reader, r1)
    requires 0 < |s.stack| && Top(s.stack).Bool?
    requires Get(s.store, CondKey(r1.cursor)) == Some(Cond(c))
    ensures IfStep(s, r1).Running?
    ensures var frames := IfStep(s, r1).state.frames;
      var n := |s.frames|;
      && frames[..n - 1] == s.frames[..n - 1]
      && (Top(s.stack).b ==>
            && |frames| == n + 1
            && frames[n - 1] == Frame(c.end + 3, TopFrame(s).end, c.line)
            && frames[n].start == c.ifStart
            && (c.elseStart == 0 ==> frames[n].end == c.end)
            && (c.elseStart != 0 ==> frames[n].end + 4 == c.elseStart))
      && (!Top(s.stack).b ==>
            && frames[n - 1] == Frame(c.end + 4, TopFrame(s).end, c.line)
            && (c.elseStart == 0 ==> |frames| == n)
            && (c.elseStart != 0 ==> |frames| == n + 1 && frames[n] == Frame(c.elseStart, c.end, c.line)))
  {
    assert BindingWithin(Cond(c), |s.reader.text|);
  }

  /** Without a record at the read position, `if` only moves the reader on. */
  lemma IfWithoutRecordIsSkipped(s: State, r1: Lexer.Reader)
    requires Valid(s) && Fetched(s.reader, r1)
    requires 0 < |s.stack| && Top(s.stack).Bool?
    requires Get(s.store, CondKey(r1.cursor)).None?
    ensures IfStep(s, r1) == Running(s.(reader := r1))
  {
  }

  /**
   * After `v x ref`, x is bound to v and every other binding is as it was;
   * a later bare `x` then pushes v.
   */
  lemma RefThenRead(s: State, r1: Lexer.Reader, t1: Lexer.Reader, t2: Lexer.Reader)
    requires Valid(s) && Fetched(s.reader, r1)
    requires RefStep(s, r1).Running?
    requires var s1 := RefStep(s, r1).state;
      Fetched(s1.reader, t1) && Fetched(t1, t2) && t1.val == Top(s.stack).name && !TakesName(t2.val)
    ensures 1 < |s.stack| && Top(s.stack).Ident?
    ensures var s1 := RefStep(s, r1).state;
      && Get(s1.store, Top(s.stack).name) == Some(Var(Below(s.stack)))
      && (forall m :: m != Top(s.stack).name ==> Get(s1.store, m) == Get(s.store, m))
      && IdentifierStep(s1, t1, t2).Running?
      && IdentifierStep(s1, t1, t2).state.stack == Drop(s.stack, 2) + [Below(s.stack)]
  {
  }

  /**
   * `dref` on a variable leaves that variable bound to the same value; what
   * it may drop are other variables stored beneath it in the tree.
   */
  lemma DrefKeepsItsName(s: State, r1: Lexer.Reader)
    requires Valid(s) && Fetched(s.reader, r1)
    requires DrefStep(s, r1).Running?
    ensures 0 < |s.stack| && Top(s.stack).Ident?
    ensures var s1 := DrefStep(s, r1).state;
      && Get(s1.store, Top(s.stack).name) == Get(s.store, Top(s.stack).name)
      && Get(s.store, Top(s.stack).name).Some?
      && (forall m :: Get(s1.store, m).Some? ==> Get(s1.store, m) == Get(s.store, m))
  {
    var name := Top(s.stack).name;
    forall m | Get(DrefStep(s, r1).state.store, m).Some?
      ensures Get(DrefStep(s, r1).state.store, m) == Get(s.store, m)
    {
      DelKeepsSurvivors(s.store, name, |s.store.name|, m);
    }
  }

  /** A prescan error stops `exec` before any code runs, and is reported first. */
  lemma PrescanErrorRejects(text: string, fuel: nat)
    requires RunPrescan(text).error.Some?
    ensures Execute(text, fuel).Rejected?
    ensures 0 < |Execute(text, fuel).errors| && Execute(text, fuel).errors[0] == RunPrescan(text).error.value
  {
  }

  /** A clean prescan without `main` is reported as such, and only that. */
  lemma MissingMainRejects(text: string, fuel: nat)
    requires RunPrescan(text).error.None? && Get(RunPrescan(text).store, "main").None?
    ensures Execute(text, fuel) == Rejected([NoMain])
  {
  }
}

=== FILE: instructions.dfy ===
/**
 * The keyword handlers of `SIVM_Exec` that touch only the operand stack,
 * as pure functions on a stack whose top is its LAST element. Each either
 * gives the new stack, or the error it reports, or marks the input on which
 * the source has undefined behaviour.
 */
module Instructions {
  import opened Values

  datatype StackResult =
    | Done(stack: seq<Value>)
    | Fault(error: Error)
    | Undef(reason: string)

  function Top(st: seq<Value>): Value
    requires 0 < |st|
  {
    st[|st| - 1]
  }

  function Below(st: seq<Value>): Value
    requires 1 < |st|
  {
    st[|st| - 2]
  }

  /** The stack with its top n values removed. */
  function Drop(st: seq<Value>, n: nat): seq<Value>
    requires n <= |st|
  {
    st[..|st| - n]
  }

  /**
   * What `not`, `and` and `or` read from a value: a number is true when
   * non-zero, a string or array when non-empty. Identifiers have none.
   */
  predicate Truthy(v: Value)
    requires !v.Ident?
  {
    match v
    case Num(x) => x != 0.0
    case Bool(b) => b
    case Str(s) => 0 < |s|
    case Arr(e) => 0 < |e|
  }

  // ---------------------------------------------------------------------
  // Stack operators
  // ---------------------------------------------------------------------

  /** `dup`: push a copy of the top. */
  function Dup(st: seq<Value>): (r: StackResult)
    ensures r.Done? <==> 0 < |st|
    ensures r.Fault? ==> r.error == StackEmpty
    ensures r.Done? ==> |r.stack| == |st| + 1 && r.stack[..|st|] == st && Top(r.stack) == Top(st)
  {
    if |st| == 0 then Fault(StackEmpty) else Done(st + [Top(st)])
  }

  /** `pop`: drop the top. */
  function Pop(st: seq<Value>): (r: StackResult)
    ensures r.Done? <==> 0 < |st|
    ensures r.Fault? ==> r.error == StackEmpty
    ensures r.Done? ==> r.stack + [Top(st)] == st
  {
    if |st| == 0 then Fault(StackEmpty) else Done(Drop(st, 1))
  }

  /** `dup pop` leaves the stack as it was. */
  lemma DupPop(st: seq<Value>)
    requires 0 < |st|
    ensures Pop(Dup(st).stack) == Done(st)
  {
  }

  /** `swap`: exchange the top two values. */
  function Swap(st: seq<Value>): (r: StackResult)
    ensures r.Done? <==> 1 < |st|
    ensures r.Fault? ==> r.error == StackEmpty
    ensures r.Done? ==>
      && |r.stack| == |st| && Drop(r.stack, 2) == Drop(st, 2)
      && Top(r.stack) == Below(st) && Below(r.stack) == Top(st)
  {
    if |st| < 2 then Fault(StackEmpty) else Done(Drop(st, 2) + [Top(st), Below(st)])
  }

  /** Swapping twice gives the original stack back. */
  lemma SwapTwice(st: seq<Value>)
    requires 1 < |st|
    ensures Swap(Swap(st).stack) == Done(st)
  {
    var s2 := Swap(Swap(st).stack).stack;
    assert s2 == Drop(st, 2) + [Below(st), Top(st)];
    assert st == Drop(st, 2) + [Below(st), Top(st)];
  }

  function Reverse(s: seq<Value>): (r: seq<Value>)
    ensures |r| == |s|
  {
    if |s| == 0 then [] else [s[|s| - 1]] + Reverse(s[..|s| - 1])
  }

  lemma {:induction false} ReverseIndex(s: seq<Value>, i: nat)
    requires i < |s|
    ensures Reverse(s)[i] == s[|s| - 1 - i]
  {
    if i > 0 {
      ReverseIndex(s[..|s| - 1], i - 1);
    }
  }

  /** Reversing twice is the identity. */
  lemma ReverseTwice(s: seq<Value>)
    ensures Reverse(Reverse(s)) == s
  {
    forall i | 0 <= i < |s|
      ensures Reverse(Reverse(s))[i] == s[i]
    {
      ReverseIndex(Reverse(s), i);
      ReverseIndex(s, |s| - 1 - i);
    }
  }

  /** `rotate`: pop every value and push them back in popping order, reversing the stack. */
  function Rotate(st: seq<Value>): (r: StackResult)
    ensures r.Done? <==> 0 < |st|
    ensures r.Fault? ==> r.error == StackEmpty
    ensures r.Done? ==> |r.stack| == |st| && forall i :: 0 <= i < |st| ==> r.stack[i] == st[|st| - 1 - i]
  {
    if |st| == 0 then Fault(StackEmpty)
    else
      forall i | 0 <= i < |st|
        ensures Reverse(st)[i] == st[|st| - 1 - i]
      {
        ReverseIndex(st, i);
      }
      Done(Reverse(st))
  }

  /** Rotating twice gives the original stack back. */
  lemma RotateTwice(st: seq<Value>)
    requires 0 < |st|
    ensures Rotate(Rotate(st).stack) == Done(st)
  {
    ReverseTwice(st);
  }

  /** `print` and `println` need a value and leave the stack alone (the output is not modelled). */
  function Print(st: seq<Value>): (r: StackResult)
    ensures r.Done? <==> 0 < |st|
    ensures r.Fault? ==> r.error == StackEmpty
    ensures r.Done? ==> r.stack == st
  {
    if |st| == 0 then Fault(StackEmpty) else Done(st)
  }

  // ---------------------------------------------------------------------
  // Logic operators
  // ---------------------------------------------------------------------

  /**
   * `not`: replace the top by the negation of its truthiness. An identifier
   * on top is popped and nothing is pushed in its place.
   */
  function Not(st: seq<Value>): (r: StackResult)
    ensures r.Done? <==> 0 < |st|
    ensures r.Fault? ==> r.error == StackEmpty
    ensures r.Done? && Top(st).Ident? ==> r.stack == Drop(st, 1)
    ensures r.Done? && !Top(st).Ident? ==> r.stack == Drop(st, 1) + [Bool(!Truthy(Top(st)))]
  {
    if |st| == 0 then Fault(StackEmpty)
    else
      var rest := Drop(st, 1);
      match Top(st)
      case Num(x) => Done(rest + [Bool(x == 0.0)])
      case Bool(b) => Done(rest + [Bool(!b)])
      case Arr(e) => Done(rest + [Bool(|e| == 0)])
      case Str(s) => Done(rest + [Bool(|s| == 0)])
      case Ident(_) => Done(rest)
  }

  /** `not not` turns a value into its truthiness and gives a Boolean back unchanged. */
  lemma NotNot(st: seq<Value>)
    requires 0 < |st| && !Top(st).Ident?
    ensures Not(Not(st).stack) == Done(Drop(st, 1) + [Bool(Truthy(Top(st)))])
    ensures Top(st).Bool? ==> Not(Not(st).stack) == Done(st)
  {
    assert Drop(Not(st).stack, 1) == Drop(st, 1);
    if Top(st).Bool? {
      assert st == Drop(st, 1) + [Top(st)];
    }
  }

  /**
   * `and` (isAnd) or `or`: with two values the handler collects only the
   * top operand and pops it. The connective short-circuits: `and` on a
   * falsy top pushes `false`, `or` on a truthy top pushes `true`, and the
   * second operand, never collected, is not read. Otherwise the handler
   * reads it, which is undefined behaviour; so is a name on top, for which
   * nothing is collected at all.
   */
  function AndOr(isAnd: bool, st: seq<Value>): (r: StackResult)
    ensures r.Fault? <==> |st| < 2
    ensures r.Fault? ==> r.error == StackEmpty
    ensures r.Done? <==> 1 < |st| && !Top(st).Ident? && Truthy(Top(st)) != isAnd
    ensures r.Done? ==> r.stack == Drop(st, 1) + [Bool(!isAnd)]
  {
    if |st| < 2 then Fault(StackEmpty)
    else if Top(st).Ident? then Undef("reads an operand the loop never collected")
    else if isAnd && !Truthy(Top(st)) then Done(Drop(st, 1) + [Bool(false)])
    else if !isAnd && Truthy(Top(st)) then Done(Drop(st, 1) + [Bool(true)])
    else Undef("reads an operand the loop never collected")
  }

  /**
   * Whenever `and`/`or` finishes, what it pushes is the connective applied
   * to the top's truth value and ANY second operand: the one never
   * collected cannot change the result.
   */
  lemma AndOrIgnoresSecond(isAnd: bool, st: seq<Value>, other: bool)
    requires AndOr(isAnd, st).Done?
    ensures Top(AndOr(isAnd, st).stack) ==
      Bool(if isAnd then Truthy(Top(st)) && other else Truthy(Top(st)) || other)
    ensures Drop(AndOr(isAnd, st).stack, 1) == Drop(st, 1)
  {
    var r := AndOr(isAnd, st).stack;
    assert r == Drop(st, 1) + [Bool(!isAnd)];
    assert Drop(r, 1) == Drop(st, 1);
  }

  // ---------------------------------------------------------------------
  // Array operators
  // ---------------------------------------------------------------------

  /** A number that is a valid size or index: non-negative and integral. */
  predicate IsCount(x: real) {
    0.0 <= x && IsIntegral(x)
  }

  function CountOf(x: real): (n: nat)
    requires IsCount(x)
    ensures n as real == x
  {
    x.Floor
  }

  /**
   * `mkarr`: the top number n, which must be a non-negative integer, is
   * popped; then n values are popped, top first, into a new array.
   */
  function MkArr(st: seq<Value>): (r: StackResult)
    ensures r.Fault? && r.error == StackEmpty <==> |st| == 0
    ensures r.Fault? && r.error.ExpectedVal? <==> 0 < |st| && !Top(st).Num?
    ensures r.Fault? && r.error.InvalidArraySize? <==> 0 < |st| && Top(st).Num? && !IsCount(Top(st).n)
    ensures r.Fault? && r.error.CannotCreateArray? <==>
      0 < |st| && Top(st).Num? && IsCount(Top(st).n) && |st| - 1 < CountOf(Top(st).n)
    ensures r.Done? ==>
      var n := CountOf(Top(st).n);
      && n < |st| && |r.stack| == |st| - n && r.stack[..|r.stack| - 1] == Drop(st, n + 1)
      && Top(r.stack).Arr? && |Top(r.stack).elems| == n
      && forall i :: 0 <= i < n ==> Top(r.stack).elems[i] == st[|st| - 2 - i]
    ensures !r.Undef?
  {
    if |st| == 0 then Fault(StackEmpty)
    else if !Top(st).Num? then Fault(ExpectedVal("<number>", TypeName(Top(st))))
    else if !IsCount(Top(st).n) then Fault(InvalidArraySize(Top(st).n))
    else
      var n := CountOf(Top(st).n);
      var rest := Drop(st, 1);
      if |rest| < n then Fault(CannotCreateArray(n))
      else
        var taken := rest[|rest| - n..];
        forall i | 0 <= i < n
          ensures Reverse(taken)[i] == st[|st| - 2 - i]
        {
          ReverseIndex(taken, i);
        }
        Done(Drop(rest, n) + [Arr(Reverse(taken))])
  }

  /**
   * `arrat`: the top number, a non-negative integer, is popped; the array
   * beneath stays; the index is pushed back, then the element.
   */
  function ArrAt(st: seq<Value>): (r: StackResult)
    ensures r.Fault? && r.error == StackEmpty <==> |st| < 2
    ensures r.Fault? && r.error.ExpectedVal? && r.error.expected == "<number>" <==> 1 < |st| && !Top(st).Num?
    ensures 1 < |st| && !Top(st).Num? ==> r == Fault(ExpectedVal("<number>", TypeName(Top(st))))
    ensures r.Fault? && r.error.InvalidArrayIndex? <==> 1 < |st| && Top(st).Num? && !IsCount(Top(st).n)
    ensures r.Fault? && r.error.ExpectedVal? && r.error.expected == "<array>" <==>
      1 < |st| && Top(st).Num? && IsCount(Top(st).n) && !Below(st).Arr?
    ensures 1 < |st| && Top(st).Num? && IsCount(Top(st).n) && !Below(st).Arr? ==>
      r == Fault(ExpectedVal("<array>", TypeName(Below(st))))
    ensures r.Fault? && r.error.ArrayIndexOutOfBound? <==>
      1 < |st| && Top(st).Num? && IsCount(Top(st).n) && Below(st).Arr? && |Below(st).elems| <= CountOf(Top(st).n)
    ensures r.Done? ==>
      r.stack == Drop(st, 1) + [Top(st), Below(st).elems[CountOf(Top(st).n)]]
    ensures !r.Undef?
  {
    if |st| < 2 then Fault(StackEmpty)
    else if !Top(st).Num? then Fault(ExpectedVal("<number>", TypeName(Top(st))))
    else if !IsCount(Top(st).n) then Fault(InvalidArrayIndex(Top(st).n))
    else
      var i := CountOf(Top(st).n);
      var a := Below(st);
      if !a.Arr? then Fault(ExpectedVal("<array>", TypeName(a)))
      else if |a.elems| <= i then Fault(ArrayIndexOutOfBound(i))
      else Done(Drop(st, 1) + [Num(i as real), a.elems[i]])
  }

  /**
   * Building an array of n values and indexing it at i gives the value
   * that was i places below the count, with the array and index left beneath.
   */
  lemma MkArrThenArrAt(st: seq<Value>, i: nat)
    requires MkArr(st).Done?
    requires i < |Top(MkArr(st).stack).elems|
    ensures ArrAt(MkArr(st).stack + [Num(i as real)]).Done?
    ensures Top(ArrAt(MkArr(st).stack + [Num(i as real)]).stack) == st[|st| - 2 - i]
  {
    var s := MkArr(st).stack + [Num(i as real)];
    assert Top(s) == Num(i as real) && Below(s) == Top(MkArr(st).stack);
    assert CountOf(i as real) == i;
  }

  /** `arrconcat`: pop two arrays and push the top one followed by the second. */
  function ArrConcat(st: seq<Value>): (r: StackResult)
    ensures r.Fault? && r.error == StackEmpty <==> |st| < 2
    ensures r.Fault? && r.error.ExpectedVal? <==> 1 < |st| && !(Top(st).Arr? && Below(st).Arr?)
    ensures r.Done? ==>
      && 0 < |r.stack| && Drop(r.stack, 1) == Drop(st, 2) && Top(r.stack).Arr?
      && |Top(r.stack).elems| == |Top(st).elems| + |Below(st).elems|
      && (forall i :: 0 <= i < |Top(st).elems| ==> Top(r.stack).elems[i] == Top(st).elems[i])
      && (forall i :: 0 <= i < |Below(st).elems| ==>
            Top(r.stack).elems[|Top(st).elems| + i] == Below(st).elems[i])
    ensures !r.Undef?
  {
    if |st| < 2 then Fault(StackEmpty)
    else if !Top(st).Arr? then Fault(ExpectedVal("<array>", TypeName(Top(st))))
    else if !Below(st).Arr? then Fault(ExpectedVal("<array>", TypeName(Below(st))))
    else Done(Drop(st, 2) + [Arr(Top(st).elems + Below(st).elems)])
  }

  /** `arrpush`: pop the top value and append it to the array beneath, in place. */
  function ArrPush(st: seq<Value>): (r: StackResult)
    ensures r.Fault? && r.error == StackEmpty <==> |st| < 2
    ensures r.Fault? && r.error.ExpectedVal? <==> 1 < |st| && !Below(st).Arr?
    ensures r.Done? ==>
      && 0 < |r.stack| && Drop(r.stack, 1) == Drop(st, 2) && Top(r.stack).Arr?
      && Top(r.stack).elems == Below(st).elems + [Top(st)]
    ensures !r.Undef?
  {
    if |st| < 2 then Fault(StackEmpty)
    else if !Below(st).Arr? then Fault(ExpectedVal("<array>", TypeName(Below(st))))
    else Done(Drop(st, 2) + [Arr(Below(st).elems + [Top(st)])])
  }

  /** `arrpop`: drop the last element of the array on top, in place; the element is discarded. */
  function ArrPop(st: seq<Value>): (r: StackResult)
    ensures r.Fault? && r.error == StackEmpty <==> |st| == 0
    ensures r.Fault? && r.error.ExpectedVal? <==> 0 < |st| && !Top(st).Arr?
    ensures r.Undef? <==> 0 < |st| && Top(st).Arr? && |Top(st).elems| == 0
    ensures r.Done? ==>
      && 0 < |r.stack| && Drop(r.stack, 1) == Drop(st, 1) && Top(r.stack).Arr?
      && Top(r.stack).elems + [Top(st).elems[|Top(st).elems| - 1]] == Top(st).elems
  {
    if |st| == 0 then Fault(StackEmpty)
    else if !Top(st).Arr? then Fault(ExpectedVal("<array>", TypeName(Top(st))))
    else if |Top(st).elems| == 0 then Undef("pop_back on an empty vector")
    else Done(Drop(st, 1) + [Arr(Top(st).elems[..|Top(st).elems| - 1])])
  }

  /** `arrpush` then `arrpop` leaves the array as it was (the pushed value is gone). */
  lemma ArrPushThenArrPop(st: seq<Value>)
    requires ArrPush(st).Done?
    ensures ArrPop(ArrPush(st).stack) == Done(Drop(st, 1))
  {
    var a := Below(st).elems;
    assert (a + [Top(st)])[..|a|] == a;
    assert Drop(st, 1) == Drop(st, 2) + [Arr(a)];
  }

  // ---------------------------------------------------------------------
  // String operators
  // ---------------------------------------------------------------------

  /** `strconcat`: pop two strings and push the top one followed by the second. */
  function StrConcat(st: seq<Value>): (r: StackResult)
    ensures r.Fault? && r.error == StackEmpty <==> |st| < 2
    ensures r.Fault? && r.error.ExpectedVal? <==> 1 < |st| && !(Top(st).Str? && Below(st).Str?)
    ensures r.Done? ==>
      && 0 < |r.stack| && Drop(r.stack, 1) == Drop(st, 2) && Top(r.stack).Str?
      && |Top(r.stack).s| == |Top(st).s| + |Below(st).s|
      && Top(r.stack).s[..|Top(st).s|] == Top(st).s && Top(r.stack).s[|Top(st).s|..] == Below(st).s
    ensures !r.Undef?
  {
    if |st| < 2 then Fault(StackEmpty)
    else if !Top(st).Str? then Fault(ExpectedVal("<string>", TypeName(Top(st))))
    else if !Below(st).Str? then Fault(ExpectedVal("<string>", TypeName(Below(st))))
    else Done(Drop(st, 2) + [Str(Top(st).s + Below(st).s)])
  }

  /**
   * `strat`: the top string is popped, the index number beneath stays, and
   * the one-character string at that index is pushed.
   */
  function StrAt(st: seq<Value>): (r: StackResult)
    ensures r.Fault? && r.error == StackEmpty <==> |st| < 2
    ensures r.Fault? && r.error.ExpectedVal? && r.error.expected == "<string>" <==> 1 < |st| && !Top(st).Str?
    ensures 1 < |st| && !Top(st).Str? ==> r == Fault(ExpectedVal("<string>", TypeName(Top(st))))
    ensures r.Fault? && r.error.ExpectedVal? && r.error.expected == "<number>" <==>
      1 < |st| && Top(st).Str? && !Below(st).Num?
    ensures 1 < |st| && Top(st).Str? && !Below(st).Num? ==> r == Fault(ExpectedVal("<number>", TypeName(Below(st))))
    ensures r.Fault? && r.error.InvalidStringIndex? <==>
      1 < |st| && Top(st).Str? && Below(st).Num? && !IsCount(Below(st).n)
    ensures r.Fault? && r.error.StringIndexOutOfRange? <==>
      1 < |st| && Top(st).Str? && Below(st).Num? && IsCount(Below(st).n) && |Top(st).s| <= CountOf(Below(st).n)
    ensures r.Done? ==> r.stack == Drop(st, 1) + [Str([Top(st).s[CountOf(Below(st).n)]])]
    ensures !r.Undef?
  {
    if |st| < 2 then Fault(StackEmpty)
    else if !Top(st).Str? then Fault(ExpectedVal("<string>", TypeName(Top(st))))
    else
      var s := Top(st).s;
      var pos := Below(st);
      if !pos.Num? then Fault(ExpectedVal("<number>", TypeName(pos)))
      else if !IsCount(pos.n) then Fault(InvalidStringIndex(pos.n))
      else if |s| <= CountOf(pos.n) then Fault(StringIndexOutOfRange(pos.n))
      else Done(Drop(st, 1) + [Str([s[CountOf(pos.n)]])])
  }

  /**
   * Indexing a concatenation: position i of `b a strconcat` is position i
   * of a when i is inside a, else position i - |a| of b.
   */
  lemma StrAtOfConcat(rest: seq<Value>, a: string, b: string, i: nat)
    requires i < |a| + |b|
    ensures var c := StrConcat(rest + [Str(b), Str(a)]).stack;
      StrAt(Drop(c, 1) + [Num(i as real), Top(c)]) ==
        Done(Drop(c, 1) + [Num(i as real), Str([if i < |a| then a[i] else b[i - |a|]])])
  {
    var st := rest + [Str(b), Str(a)];
    assert Top(st) == Str(a) && Below(st) == Str(b);
    assert CountOf(i as real) == i;
  }

  // ---------------------------------------------------------------------
  // Arithmetic and comparison
  // ---------------------------------------------------------------------

  datatype ArithOp = Add | Sub | Mul | Div | Mod

  /**
   * Truncation toward zero, as the conversion inside `std::fmod` rounds:
   * what it removes is a fraction in [0, 1) above zero and in (-1, 0] below.
   */
  function Trunc(q: real): (t: int)
    ensures 0.0 <= q ==> 0.0 <= q - t as real < 1.0
    ensures q < 0.0 ==> -1.0 < q - t as real <= 0.0
  {
    if 0.0 <= q then q.Floor else -((-q).Floor)
  }

  /** `std::fmod` on exact reals: the remainder of the quotient truncated toward zero. */
  function FMod(a: real, b: real): real
    requires b != 0.0
  {
    a - b * Trunc(a / b) as real
  }

  function Abs(x: real): (y: real)
    ensures 0.0 <= y && (y == x || y == -x)
  {
    if x < 0.0 then -x else x
  }

  /**
   * The remainder has the sign of the dividend and is smaller than the
   * divisor in magnitude, and the dividend is rebuilt from it.
   */
  lemma FModBounds(a: real, b: real)
    requires b != 0.0
    ensures 0.0 <= a ==> 0.0 <= FMod(a, b)
    ensures a <= 0.0 ==> FMod(a, b) <= 0.0
    ensures Abs(FMod(a, b)) < Abs(b)
    ensures a == b * Trunc(a / b) as real + FMod(a, b)
  {
    var q := a / b;
    var d := q - Trunc(q) as real;
    FModScaled(a, b);
    FractionBelowOne(q);
    ScaledBelow(b, d);
    FractionSign(a, b);
    ProductSign(b, d);
  }

  /** The fractional part of a quotient is less than one in magnitude. */
  lemma FractionBelowOne(q: real)
    ensures Abs(q - Trunc(q) as real) < 1.0
  {
  }

  /** Scaling by a factor below one in magnitude shrinks the magnitude. */
  lemma ScaledBelow(b: real, d: real)
    requires b != 0.0 && Abs(d) < 1.0
    ensures Abs(b * d) < Abs(b)
  {
    ScaleFraction(Abs(b), Abs(d));
    AbsProduct(b, d);
  }

  /** The fractional part of `a / b` has the sign of `a` times the sign of `b`. */
  lemma FractionSign(a: real, b: real)
    requires b != 0.0
    ensures var d := a / b - Trunc(a / b) as real;
      && ((0.0 <= a && 0.0 < b) || (a <= 0.0 && b < 0.0) ==> 0.0 <= d)
      && ((0.0 <= a && b < 0.0) || (a <= 0.0 && 0.0 < b) ==> d <= 0.0)
  {
    QuotientSign(a, b);
  }

  /** The quotient's sign: non-negative exactly when dividend and divisor agree in sign. */
  lemma QuotientSign(a: real, b: real)
    requires b != 0.0
    ensures (0.0 <= a && 0.0 < b) || (a <= 0.0 && b < 0.0) ==> 0.0 <= a / b
    ensures (0.0 <= a && b < 0.0) || (a <= 0.0 && 0.0 < b) ==> a / b <= 0.0
  {
  }

  /** The remainder is the divisor scaled by the fractional part of the quotient. */
  lemma FModScaled(a: real, b: real)
    requires b != 0.0
    ensures FMod(a, b) == b * (a / b - Trunc(a / b) as real)
  {
    var q := a / b;
    var t := Trunc(q) as real;
    assert b * q == a;
    assert b * (q - t) == b * q - b * t;
  }

  lemma AbsProduct(x: real, y: real)
    ensures Abs(x * y) == Abs(x) * Abs(y)
  {
    if x < 0.0 && y < 0.0 {
      assert x * y == (-x) * (-y);
    } else if x < 0.0 {
      assert x * y == -((-x) * y);
    } else if y < 0.0 {
      assert x * y == -(x * (-y));
    }
  }

  lemma ProductSign(x: real, y: real)
    ensures (0.0 <= x && 0.0 <= y) || (x <= 0.0 && y <= 0.0) ==> 0.0 <= x * y
    ensures (0.0 <= x && y <= 0.0) || (x <= 0.0 && 0.0 <= y) ==> x * y <= 0.0
  {
  }

  lemma ScaleFraction(m: real, e: real)
    requires 0.0 < m && 0.0 <= e < 1.0
    ensures 0.0 <= m * e < m
  {
    PositiveProduct(m, 1.0 - e);
    assert m * (1.0 - e) == m - m * e;
    PositiveProduct(m, e);
  }

  lemma PositiveProduct(x: real, y: real)
    requires 0.0 < x && 0.0 <= y
    ensures 0.0 <= x * y && (0.0 < y ==> 0.0 < x * y)
  {
  }

  function Apply(op: ArithOp, v1: real, v0: real): real
    requires (op == Div || op == Mod) ==> v0 != 0.0
  {
    match op
    case Add => v1 + v0
    case Sub => v1 - v0
    case Mul => v1 * v0
    case Div => v1 / v0
    case Mod => FMod(v1, v0)
  }

  /**
   * add/sub/mul/div/mod: pop v0 (the top) then v1, both numbers, and push
   * v1 OP v0. Division and remainder by zero fail.
   */
  function Arith(op: ArithOp, st: seq<Value>): (r: StackResult)
    ensures r.Fault? && r.error == StackEmpty <==> |st| < 2
    ensures r.Fault? && r.error.ExpectedVal? <==> 1 < |st| && !(Top(st).Num? && Below(st).Num?)
    ensures r.Fault? && r.error == DivideByZero <==>
      1 < |st| && Top(st).Num? && Below(st).Num? && (op == Div || op == Mod) && Top(st).n == 0.0
    ensures r.Done? ==>
      0 < |r.stack| && Drop(r.stack, 1) == Drop(st, 2) && Top(r.stack) == Num(Apply(op, Below(st).n, Top(st).n))
    ensures !r.Undef?
  {
    if |st| < 2 then Fault(StackEmpty)
    else if !Top(st).Num? then Fault(ExpectedVal("<number>", TypeName(Top(st))))
    else if !Below(st).Num? then Fault(ExpectedVal("<number>", TypeName(Below(st))))
    else if (op == Div || op == Mod) && Top(st).n == 0.0 then Fault(DivideByZero)
    else Done(Drop(st, 2) + [Num(Apply(op, Below(st).n, Top(st).n))])
  }

  /** `a b add b sub` gives a back. */
  lemma AddThenSub(rest: seq<Value>, a: real, b: real)
    ensures Arith(Sub, Arith(Add, rest + [Num(a), Num(b)]).stack + [Num(b)]) == Done(rest + [Num(a)])
  {
    var st := rest + [Num(a), Num(b)];
    assert Drop(st, 2) == rest && Top(st) == Num(b) && Below(st) == Num(a);
    var s1 := Arith(Add, st).stack;
    assert s1 == rest + [Num(a + b)];
  }

  /** `a b mul b div` gives a back when b is not zero. */
  lemma MulThenDiv(rest: seq<Value>, a: real, b: real)
    requires b != 0.0
    ensures Arith(Div, Arith(Mul, rest + [Num(a), Num(b)]).stack + [Num(b)]) == Done(rest + [Num(a)])
  {
    var st := rest + [Num(a), Num(b)];
    assert Drop(st, 2) == rest && Top(st) == Num(b) && Below(st) == Num(a);
    var s1 := Arith(Mul, st).stack;
    assert s1 == rest + [Num(a * b)];
    assert a * b / b == a;
  }

  datatype CmpOp = Gt | Lt | GtEq | LtEq

  function Holds(op: CmpOp, v1: real, v0: real): bool {
    match op
    case Gt => v1 > v0
    case Lt => v1 < v0
    case GtEq => v1 >= v0
    case LtEq => v1 <= v0
  }

  /** gt/lt/gteq/lteq: pop v0 then v1, both numbers, and push whether v1 OP v0. */
  function Compare(op: CmpOp, st: seq<Value>): (r: StackResult)
    ensures r.Fault? && r.error == StackEmpty <==> |st| < 2
    ensures r.Fault? && r.error.ExpectedVal? <==> 1 < |st| && !(Top(st).Num? && Below(st).Num?)
    ensures r.Done? ==> 0 < |r.stack| && Drop(r.stack, 1) == Drop(st, 2) && Top(r.stack) == Bool(Holds(op, Below(st).n, Top(st).n))
    ensures !r.Undef?
  {
    if |st| < 2 then Fault(StackEmpty)
    else if !Top(st).Num? then Fault(ExpectedVal("<number>", TypeName(Top(st))))
    else if !Below(st).Num? then Fault(ExpectedVal("<number>", TypeName(Below(st))))
    else Done(Drop(st, 2) + [Bool(Holds(op, Below(st).n, Top(st).n))])
  }

  /** `gt` and `lteq` (and `lt` and `gteq`) always give opposite answers. */
  lemma CompareComplement(st: seq<Value>)
    requires Compare(Gt, st).Done?
    ensures Compare(LtEq, st).Done? && Compare(Lt, st).Done? && Compare(GtEq, st).Done?
    ensures Top(Compare(LtEq, st).stack) == Bool(!Top(Compare(Gt, st).stack).b)
    ensures Top(Compare(GtEq, st).stack) == Bool(!Top(Compare(Lt, st).stack).b)
  {
  }

  /**
   * Equality of two values with the same tag: strings, numbers and
   * Booleans by content, arrays by contents here (the source compares
   * element pointers), identifiers never.
   */
  predicate SameValue(a: Value, b: Value) {
    match (a, b)
    case (Str(x), Str(y)) => x == y
    case (Num(x), Num(y)) => x == y
    case (Bool(x), Bool(y)) => x == y
    case (Arr(x), Arr(y)) => x == y
    case _ => false
  }

  function Tag(v: Value): nat {
    match v
    case Num(_) => 0
    case Str(_) => 1
    case Bool(_) => 2
    case Arr(_) => 3
    case Ident(_) => 4
  }

  /**
   * eq/neq: pop two values. With different tags `eq` gives false and `neq`
   * true; with the same tag the comparison is by tag, negated for `neq`.
   */
  function Equal(negate: bool, st: seq<Value>): (r: StackResult)
    ensures r.Fault? <==> |st| < 2
    ensures r.Fault? ==> r.error == StackEmpty
    ensures r.Done? ==>
      && 0 < |r.stack| && Drop(r.stack, 1) == Drop(st, 2)
      && (Tag(Top(st)) != Tag(Below(st)) ==> Top(r.stack) == Bool(negate))
      && (Tag(Top(st)) == Tag(Below(st)) ==> Top(r.stack) == Bool(SameValue(Top(st), Below(st)) != negate))
    ensures !r.Undef?
  {
    if |st| < 2 then Fault(StackEmpty)
    else
      var v0 := Top(st);
      var v1 := Below(st);
      var res := if Tag(v0) == Tag(v1) then SameValue(v0, v1) != negate else negate;
      Done(Drop(st, 2) + [Bool(res)])
  }

  /** `eq` and `neq` always give opposite answers, and both are symmetric. */
  lemma EqualProperties(rest: seq<Value>, a: Value, b: Value)
    ensures Top(Equal(true, rest + [a, b]).stack) == Bool(!Top(Equal(false, rest + [a, b]).stack).b)
    ensures Equal(false, rest + [a, b]) == Equal(false, rest + [b, a])
    ensures Equal(true, rest + [a, b]) == Equal(true, rest + [b, a])
    ensures !a.Ident? ==> Equal(false, rest + [a, a]) == Done(rest + [Bool(true)])
  {
    var st := rest + [a, b];
    var ts := rest + [b, a];
    assert Drop(st, 2) == rest && Drop(ts, 2) == rest;
    assert Top(st) == b && Below(st) == a && Top(ts) == a && Below(ts) == b;
    assert SameValue(a, b) == SameValue(b, a);
    var aa := rest + [a, a];
    assert Drop(aa, 2) == rest && Top(aa) == a && Below(aa) == a;
  }
}

=== FILE: lexer.dfy ===
/**
 * The scanner (`SILex_Reader`): a cursor and a region limit over one fixed
 * text. Each read skips separators and comments, takes one literal run and
 * classifies it. The two `std::regex` patterns are hand-written predicates.
 */
module Lexer {
  import opened Decimal
  import Values

  /** Token kinds (`SIT_TK`). */
  datatype Kind = Identifier | Eof | Keyword | Bool | Str | Number | Failure

  /**
   * The reader's state: the text, the cursor `p`, the region limit
   * `str_len`, `line_number`, and the type and `val_str` of the last read.
   * `val` is not reset by a read that hits the end of the region.
   */
  datatype Reader = Reader(text: string, cursor: nat, limit: nat, line: nat, kind: Kind, val: string)
  {
    predicate Valid() {
      cursor <= limit <= |text|
    }
  }

  /** `SI_SEP`: the characters that end a literal run. */
  predicate IsSep(c: char) {
    c == ' ' || c == '\t' || c == '\n' || c == '#'
  }

  predicate IsQuote(c: char) {
    c == '"' || c == '\''
  }

  /** `SIK_TK`: the reserved words. */
  const Keywords: set<string> := {
    "add", "sub", "div", "mul",
    "jmp", "gt", "lt",
    "eq", "neq", "gteq", "lteq",
    "and", "not", "proc", "end",
    "dref", "print", "dup", "pop",
    "swap", "rotate", "strconcat", "strat",
    "mkarr", "arrat", "arrconcat", "arrpush",
    "arrpop", "mod", "ref", "if",
    "else", "println", "sqrt", "or"
  }

  /** The constructor: an empty region at offset 0, line 1, no token yet. */
  function NewReader(text: string): (r: Reader)
    ensures r.Valid() && r.text == text && r.cursor == r.limit
  {
    Reader(text, 0, 0, 1, Eof, "")
  }

  /**
   * `new_region(start, end)`: repoint the reader at [start, end) and reset
   * the line counter, unless end lies beyond the text or before start, in
   * which case nothing changes.
   */
  function SetRegion(r: Reader, start: nat, end: nat): (r': Reader)
    ensures r'.text == r.text && r'.kind == r.kind && r'.val == r.val
    ensures r.Valid() ==> r'.Valid()
    ensures end > |r.text| || end < start ==> r' == r
    ensures start <= end <= |r.text| ==> r'.cursor == start && r'.limit == end && r'.line == 1
  {
    if end > |r.text| || end < start then r
    else r.(line := 1, cursor := start, limit := end)
  }

  /** `flush`: cursor and line back to 0, last text cleared. */
  function Flush(r: Reader): (r': Reader)
    ensures r.Valid() ==> r'.Valid()
  {
    r.(val := "", cursor := 0, line := 0)
  }

  // ---------------------------------------------------------------------
  // Separators and comments
  // ---------------------------------------------------------------------

  /** How one character changes the "inside a comment" flag. */
  function CommentStep(comment: bool, c: char): bool {
    if c == '\n' then false else if c == '#' then true else comment
  }

  /** Whether a `#` comment is open once text[p..i] has been skipped. */
  function CommentAfter(text: string, p: nat, i: nat, comment: bool): bool
    requires p <= i <= |text|
    decreases i - p
  {
    if p == i then comment else CommentAfter(text, p + 1, i, CommentStep(comment, text[p]))
  }

  /** The number of newlines in text[p..i]. */
  function Newlines(text: string, p: nat, i: nat): nat
    requires p <= i <= |text|
    decreases i - p
  {
    if p == i then 0 else (if text[p] == '\n' then 1 else 0) + Newlines(text, p + 1, i)
  }

  /**
   * `SILex_Separator`: starting at p (inside the region), skip spaces, tabs,
   * newlines and `#`-to-newline comments. Returns the new cursor and line.
   */
  function Skip(text: string, p: nat, limit: nat, line: nat, comment: bool): (res: (nat, nat))
    requires p < limit <= |text|
    decreases limit - p
    ensures p <= res.0 <= limit
    ensures res.1 == line + Newlines(text, p, res.0)
    ensures forall i :: p <= i < res.0 ==> CommentAfter(text, p, i, comment) || IsSep(text[i])
    ensures res.0 < limit ==> !CommentAfter(text, p, res.0, comment) && !IsSep(text[res.0])
  {
    var c := text[p];
    if !(comment || IsSep(c)) then (p, line)
    else
      var line' := if c == '\n' then line + 1 else line;
      if p + 1 >= limit then (p + 1, line')
      else Skip(text, p + 1, limit, line', CommentStep(comment, c))
  }

  // ---------------------------------------------------------------------
  // Literal runs
  // ---------------------------------------------------------------------

  /**
   * The literal loop of `SILex_Read` from p: outside quotes it stops before a
   * separator; a quote opens a string that runs through the next identical
   * quote, and the run ends right after that closing quote. Returns where the
   * run ends and whether a string was still open at the limit.
   */
  function ScanRun(text: string, p: nat, limit: nat, reading: bool, quote: char): (res: (nat, bool))
    requires p <= limit <= |text|
    decreases limit - p
    ensures p <= res.0 <= limit
    ensures res.1 ==> res.0 == limit
    ensures p < limit && (reading || !IsSep(text[p])) ==> p < res.0
  {
    if p < limit && (reading || !IsSep(text[p])) then
      var c := text[p];
      if IsQuote(c) && reading && quote == c then (p + 1, false)
      else if IsQuote(c) && !reading then ScanRun(text, p + 1, limit, true, c)
      else ScanRun(text, p + 1, limit, reading, quote)
    else (p, reading)
  }

  /** A run with no quotes ends at the first separator or at the limit. */
  lemma {:induction false} PlainRun(text: string, p: nat, limit: nat, j: nat, quote: char)
    requires p <= j <= limit <= |text|
    requires forall i :: p <= i < j ==> !IsSep(text[i]) && !IsQuote(text[i])
    requires j == limit || IsSep(text[j])
    ensures ScanRun(text, p, limit, false, quote) == (j, false)
    decreases j - p
  {
    if p < j {
      PlainRun(text, p + 1, limit, j, quote);
    }
  }

  /** Inside a string opened by q, the run takes everything through the next q. */
  lemma {:induction false} InsideQuote(text: string, p: nat, limit: nat, q: char, j: nat)
    requires IsQuote(q)
    requires p <= j < limit <= |text|
    requires text[j] == q
    requires forall i :: p <= i < j ==> text[i] != q
    ensures ScanRun(text, p, limit, true, q) == (j + 1, false)
    decreases j - p
  {
    if p < j {
      InsideQuote(text, p + 1, limit, q, j);
    }
  }

  /** Inside a string opened by q with no q before the limit, the run is unterminated. */
  lemma {:induction false} UnclosedQuote(text: string, p: nat, limit: nat, q: char)
    requires IsQuote(q)
    requires p <= limit <= |text|
    requires forall i :: p <= i < limit ==> text[i] != q
    ensures ScanRun(text, p, limit, true, q) == (limit, true)
    decreases limit - p
  {
    if p < limit {
      UnclosedQuote(text, p + 1, limit, q);
    }
  }

  /** A run that opens with a quote ends right after the matching quote. */
  lemma QuotedRun(text: string, p: nat, limit: nat, j: nat, quote: char)
    requires p < j < limit <= |text|
    requires IsQuote(text[p]) && text[j] == text[p]
    requires forall i :: p < i < j ==> text[i] != text[p]
    ensures ScanRun(text, p, limit, false, quote) == (j + 1, false)
  {
    InsideQuote(text, p + 1, limit, text[p], j);
  }

  /** A run that opens with a quote never closed before the limit is unterminated. */
  lemma UnterminatedRun(text: string, p: nat, limit: nat, quote: char)
    requires p < limit <= |text|
    requires IsQuote(text[p])
    requires forall i :: p < i < limit ==> text[i] != text[p]
    ensures ScanRun(text, p, limit, false, quote) == (limit, true)
  {
    UnclosedQuote(text, p + 1, limit, text[p]);
  }

  // ---------------------------------------------------------------------
  // The two patterns
  // ---------------------------------------------------------------------

  /** `.` in the ECMAScript grammar does not match a line terminator. */
  predicate IsLineTerminator(c: char) {
    c == '\n' || c == '\r'
  }

  /**
   * The interior of `(["'])(?:(?=(\\?))\2.)*?\1`: a sequence of units, each a
   * single character other than a backslash, or a backslash and the
   * character after it; no unit may contain a line terminator. The
   * look-ahead is atomic, so a backslash always starts a two-character unit.
   */
  predicate QuotedBody(s: string)
    decreases |s|
  {
    if |s| == 0 then true
    else if s[0] == '\\' then 2 <= |s| && !IsLineTerminator(s[1]) && QuotedBody(s[2..])
    else !IsLineTerminator(s[0]) && QuotedBody(s[1..])
  }

  /** Full match of the quoted-string pattern. */
  predicate StrPattern(lit: string) {
    2 <= |lit| && IsQuote(lit[0]) && lit[|lit| - 1] == lit[0] && QuotedBody(lit[1..|lit| - 1])
  }

  predicate IsSign(c: char) {
    c == '+' || c == '-'
  }

  /** The number of leading sign characters. */
  function SignCount(s: string): (n: nat)
    ensures n <= |s|
    ensures forall i :: 0 <= i < n ==> IsSign(s[i])
    ensures n < |s| ==> !IsSign(s[n])
  {
    if 0 < |s| && IsSign(s[0]) then 1 + SignCount(s[1..]) else 0
  }

  /** Index of the first occurrence of c, or |s| if there is none. */
  function IndexOf(s: string, c: char): (k: nat)
    ensures k <= |s|
    ensures forall i :: 0 <= i < k ==> s[i] != c
    ensures k < |s| ==> s[k] == c
  {
    if |s| == 0 then 0 else if s[0] == c then 0 else 1 + IndexOf(s[1..], c)
  }

  /** Index of the first `e` or `E`, or |s|. */
  function ExpIndex(s: string): (k: nat)
    ensures k <= |s|
    ensures forall i :: 0 <= i < k ==> s[i] != 'e' && s[i] != 'E'
    ensures k < |s| ==> s[k] == 'e' || s[k] == 'E'
  {
    if |s| == 0 then 0 else if s[0] == 'e' || s[0] == 'E' then 0 else 1 + ExpIndex(s[1..])
  }

  /** `[0-9]*\.?[0-9]+` */
  predicate Mantissa(m: string) {
    var d := IndexOf(m, '.');
    if d == |m| then 0 < |m| && AllDigits(m)
    else AllDigits(m[..d]) && d + 1 < |m| && AllDigits(m[d + 1..])
  }

  /** The digits of an exponent part after `e`/`E` and its optional sign. */
  function ExpDigits(e: string): string
    requires 0 < |e|
  {
    if 1 < |e| && IsSign(e[1]) then e[2..] else e[1..]
  }

  /** `([eE][-+]?[0-9]+)?` */
  predicate Exponent(e: string) {
    |e| == 0 || ((e[0] == 'e' || e[0] == 'E') && 0 < |ExpDigits(e)| && AllDigits(ExpDigits(e)))
  }

  /** Full match of the number pattern `[-+]*?[0-9]*\.?[0-9]+([eE][-+]?[0-9]+)?`. */
  predicate NumPattern(lit: string) {
    var body := lit[SignCount(lit)..];
    var k := ExpIndex(body);
    Mantissa(body[..k]) && Exponent(body[k..])
  }

  // ---------------------------------------------------------------------
  // Classification
  // ---------------------------------------------------------------------

  predicate AllLower(s: string) {
    forall i :: 0 <= i < |s| ==> 'a' <= s[i] <= 'z'
  }

  lemma KeywordIsLower(k: string)
    requires k in Keywords
    ensures 0 < |k| && AllLower(k)
  {
  }

  /** The characters a number literal can contain. */
  predicate NumChar(c: char) {
    IsDigit(c) || IsSign(c) || c == '.' || c == 'e' || c == 'E'
  }

  predicate AllNumChars(s: string) {
    forall i :: 0 <= i < |s| ==> NumChar(s[i])
  }

  lemma MantissaChars(m: string)
    requires Mantissa(m)
    ensures AllNumChars(m)
    ensures 0 < |m| && IsDigit(m[|m| - 1])
  {
    var d := IndexOf(m, '.');
    if d < |m| {
      forall i | 0 <= i < |m|
        ensures NumChar(m[i])
      {
        if i < d {
          assert m[..d][i] == m[i];
        } else if d < i {
          assert m[d + 1..][i - d - 1] == m[i];
        }
      }
      assert m[d + 1..][|m| - d - 2] == m[|m| - 1];
    }
  }

  lemma ExponentChars(e: string)
    requires Exponent(e)
    ensures AllNumChars(e)
  {
    if 0 < |e| {
      var t := ExpDigits(e);
      var o := |e| - |t|;
      forall i | 0 <= i < |e|
        ensures NumChar(e[i])
      {
        if o <= i {
          assert t[i - o] == e[i];
        }
      }
    }
  }

  /**
   * A number literal is made of signs, digits, `.`, `e` and `E` only, and
   * its mantissa ends with a digit.
   */
  lemma NumberChars(lit: string)
    requires NumPattern(lit)
    ensures AllNumChars(lit)
    ensures exists i :: 0 <= i < |lit| && IsDigit(lit[i])
  {
    var n := SignCount(lit);
    var body := lit[n..];
    var k := ExpIndex(body);
    var m := body[..k];
    var e := body[k..];
    MantissaChars(m);
    ExponentChars(e);
    assert lit == lit[..n] + m + e;
    assert lit[n + k - 1] == m[|m| - 1];
  }

  /** A word of lower-case letters never matches the number pattern. */
  lemma LowerIsNotNumber(lit: string)
    requires AllLower(lit)
    ensures !NumPattern(lit)
  {
    if NumPattern(lit) {
      NumberChars(lit);
      assert false;
    }
  }

  /** A quoted-string literal is neither a boolean, a keyword nor a number. */
  lemma StringIsNothingElse(lit: string)
    requires StrPattern(lit)
    ensures !NumPattern(lit) && lit !in Keywords && lit != "true" && lit != "false"
  {
    assert !NumChar(lit[0]) && !AllLower(lit);
    if NumPattern(lit) {
      NumberChars(lit);
    }
    if lit in Keywords {
      KeywordIsLower(lit);
    }
  }

  /** No keyword or boolean word is a number. */
  lemma WordIsNotNumber(lit: string)
    requires lit in Keywords || lit == "true" || lit == "false"
    ensures !NumPattern(lit)
  {
    if lit in Keywords {
      KeywordIsLower(lit);
    } else {
      assert AllLower("true") && AllLower("false");
    }
    LowerIsNotNumber(lit);
  }

  /**
   * The classification `SILex_Read` applies to a finished run. The source
   * tests string, boolean, keyword, number in that order; the classes are
   * disjoint, so each kind is characterised by its own pattern alone.
   */
  function Classify(lit: string): (res: (Kind, string))
    requires 0 < |lit|
    ensures res.0 == Str <==> StrPattern(lit)
    ensures res.0 == Bool <==> lit == "true" || lit == "false"
    ensures res.0 == Keyword <==> lit in Keywords
    ensures res.0 == Number <==> NumPattern(lit)
    ensures res.0 == Identifier <==>
      !StrPattern(lit) && lit != "true" && lit != "false" && lit !in Keywords && !NumPattern(lit)
    ensures res.0 == Str ==> res.1 == lit[1..|lit| - 1]
    ensures res.0 != Str ==> res.1 == lit
    ensures res.0 != Eof && res.0 != Failure
  {
    if StrPattern(lit) then
      StringIsNothingElse(lit);
      (Str, lit[1..|lit| - 1])
    else if lit == "true" || lit == "false" then
      WordIsNotNumber(lit);
      (Bool, lit)
    else if lit in Keywords then
      WordIsNotNumber(lit);
      (Keyword, lit)
    else if NumPattern(lit) then (Number, lit)
    else (Identifier, lit)
  }

  /** A run made only of signs (a lone `-`, say) is an identifier. */
  lemma LoneSignIsIdentifier(lit: string)
    requires 0 < |lit|
    requires forall i :: 0 <= i < |lit| ==> IsSign(lit[i])
    ensures Classify(lit).0 == Identifier
  {
    assert IsSign(lit[0]);
    assert !IsQuote(lit[0]) && lit[0] < 'a';
    assert !AllLower(lit);
    assert lit != "true" && lit != "false";
    if lit in Keywords {
      KeywordIsLower(lit);
    }
    if NumPattern(lit) {
      NumberChars(lit);
    }
  }

  /** A run whose quote is not its first character (`ab"cd"`) is an identifier. */
  lemma InnerQuoteIsIdentifier(lit: string, j: nat)
    requires 0 < j < |lit|
    requires !IsQuote(lit[0]) && IsQuote(lit[j])
    ensures Classify(lit).0 == Identifier
  {
    assert lit[j] < 'a' && !NumChar(lit[j]);
    assert !AllLower(lit) && !AllNumChars(lit);
    assert !StrPattern(lit);
    assert AllLower("true") && AllLower("false");
    assert lit != "true" && lit != "false";
    if lit in Keywords {
      KeywordIsLower(lit);
    }
    if NumPattern(lit) {
      NumberChars(lit);
    }
  }

  /** A quoted run whose interior is well formed is a string token holding the interior. */
  lemma StringLiteral(q: char, s: string)
    requires IsQuote(q) && QuotedBody(s)
    ensures Classify([q] + s + [q]) == (Str, s)
  {
    var lit := [q] + s + [q];
    assert lit[1..|lit| - 1] == s;
  }

  // ---------------------------------------------------------------------
  // Number values
  // ---------------------------------------------------------------------

  function Pow10(n: nat): (p: nat)
    ensures 0 < p
  {
    if n == 0 then 1 else 10 * Pow10(n - 1)
  }

  /** Value of the exponent part (0 when there is none). */
  function ExpValue(e: string): int
    requires Exponent(e)
  {
    if |e| == 0 then 0
    else
      var v: int := DigitsValue(ExpDigits(e));
      if e[1] == '-' then -v else v
  }

  /** Value of a mantissa: its digits read as an integer, over ten to the number of fraction digits. */
  function MantissaValue(m: string): (v: real)
    requires Mantissa(m)
    ensures 0.0 <= v
  {
    var d := IndexOf(m, '.');
    var intPart := m[..d];
    var frac := if d < |m| then m[d + 1..] else "";
    assert AllDigits(intPart + frac);
    DigitsValue(intPart + frac) as real / Pow10(|frac|) as real
  }

  /** A magnitude scaled by a power of ten. */
  function Scale(mant: real, e: int): real {
    if 0 <= e then mant * Pow10(e) as real else mant / Pow10(-e) as real
  }

  /**
   * `std::stod` of a number literal, as an exact real: None when the literal
   * has more than one leading sign (the conversion throws).
   */
  function NumberValue(lit: string): (v: Values.Option<real>)
    requires NumPattern(lit)
    ensures v.None? <==> 1 < SignCount(lit)
  {
    var n := SignCount(lit);
    if 1 < n then Values.None
    else
      var body := lit[n..];
      var k := ExpIndex(body);
      var mag := Scale(MantissaValue(body[..k]), ExpValue(body[k..]));
      Values.Some(if n == 1 && lit[0] == '-' then -mag else mag)
  }

  /** A run of digits always matches the number pattern. */
  lemma DigitsAreNumber(s: string)
    requires 0 < |s| && AllDigits(s)
    ensures NumPattern(s)
    ensures SignCount(s) == 0 && ExpIndex(s) == |s| && IndexOf(s, '.') == |s|
  {
    assert !IsSign(s[0]);
    assert forall i :: 0 <= i < |s| ==> s[i] != 'e' && s[i] != 'E' && s[i] != '.';
    assert s[0..] == s;
    assert s[..|s|] == s;
  }

  /** The decimal text of an offset reads back as that number. */
  lemma NumberOfDecimal(n: nat)
    ensures NumPattern(NatToString(n))
    ensures NumberValue(NatToString(n)) == Values.Some(n as real)
  {
    NatToStringRoundTrip(n);
    NumberOfDigits(NatToString(n));
  }

  /** A run of digits reads back as its decimal value. */
  lemma NumberOfDigits(s: string)
    requires 0 < |s| && AllDigits(s)
    ensures NumPattern(s)
    ensures NumberValue(s) == Values.Some(DigitsValue(s) as real)
  {
    DigitsParts(s);
    MantissaOfDigits(s);
    assert ExpValue("") == 0;
    assert Scale(DigitsValue(s) as real, 0) == DigitsValue(s) as real;
  }

  /** A mantissa without a point is worth its digits. */
  lemma MantissaOfDigits(s: string)
    requires 0 < |s| && AllDigits(s)
    ensures Mantissa(s) && MantissaValue(s) == DigitsValue(s) as real
  {
    DigitsAreNumber(s);
    assert s[..|s|] + "" == s;
    assert MantissaValue(s) == DigitsValue(s) as real / Pow10(0) as real;
    OverOne(DigitsValue(s) as real, Pow10(0));
  }

  lemma OverOne(x: real, p: nat)
    requires p == 1
    ensures x / p as real == x
  {
  }

  /** How `NumberValue` splits a run of digits: all mantissa, no point, no exponent. */
  lemma DigitsParts(s: string)
    requires 0 < |s| && AllDigits(s)
    ensures NumPattern(s) && SignCount(s) == 0
    ensures var body := s[SignCount(s)..];
      var k := ExpIndex(body);
      && body == s && k == |s| && body[..k] == s && body[k..] == ""
      && IndexOf(body[..k], '.') == |s| && body[..k][..|s|] + "" == s
  {
    DigitsAreNumber(s);
    assert s[0..] == s;
    assert s[..|s|] == s;
    assert s + "" == s;
  }

  /** A mantissa holds only digits and a point, and is never empty. */
  lemma MantissaShape(m: string)
    requires Mantissa(m)
    ensures 0 < |m| && !IsSign(m[0])
    ensures forall i :: 0 <= i < |m| ==> IsDigit(m[i]) || m[i] == '.'
  {
    var d := IndexOf(m, '.');
    if d < |m| {
      forall i | 0 <= i < |m|
        ensures IsDigit(m[i]) || m[i] == '.'
      {
        if i < d {
          assert m[..d][i] == m[i];
        } else if d < i {
          assert m[d + 1..][i - d - 1] == m[i];
        }
      }
    }
  }

  /** Leading signs followed by a non-sign are counted exactly. */
  lemma SignCountOf(sign: string, rest: string)
    requires forall i :: 0 <= i < |sign| ==> IsSign(sign[i])
    requires 0 < |rest| && !IsSign(rest[0])
    ensures SignCount(sign + rest) == |sign|
    ensures (sign + rest)[|sign|..] == rest
  {
    var s := sign + rest;
    assert forall i :: 0 <= i < |sign| ==> s[i] == sign[i];
    assert s[|sign|] == rest[0];
  }

  /** In a mantissa followed by an exponent part, the first `e`/`E` starts the exponent. */
  lemma ExpIndexOf(m: string, e: string)
    requires Mantissa(m) && Exponent(e)
    ensures ExpIndex(m + e) == |m|
    ensures (m + e)[..|m|] == m && (m + e)[|m|..] == e
  {
    MantissaShape(m);
    var s := m + e;
    assert forall i :: 0 <= i < |m| ==> s[i] == m[i];
    if |m| < |s| {
      assert s[|m|] == e[0];
    }
  }

  /** The mantissa `d.f` is worth the digits of d and f over ten to the length of f. */
  lemma MantissaOfPoint(d: string, f: string)
    requires AllDigits(d) && AllDigits(f) && 0 < |f|
    ensures Mantissa(d + "." + f)
    ensures MantissaValue(d + "." + f) == DigitsValue(d + f) as real / Pow10(|f|) as real
  {
    var m := d + "." + f;
    assert m[|d|] == '.';
    assert forall i :: 0 <= i < |d| ==> m[i] == d[i];
    assert IndexOf(m, '.') == |d|;
    assert m[..|d|] == d && m[|d| + 1..] == f;
  }

  /** The digits of the exponent part `e`, an optional sign, and x are x. */
  lemma ExpDigitsOf(esign: string, x: string)
    requires |esign| <= 1 && (|esign| == 1 ==> IsSign(esign[0]))
    requires 0 < |x| && AllDigits(x)
    ensures ExpDigits("e" + esign + x) == x
    ensures ("e" + esign + x)[1] == '-' <==> esign == "-"
  {
    var e := "e" + esign + x;
    if |esign| == 1 {
      assert e[1] == esign[0] && e[2..] == x;
      assert esign == "-" <==> esign[0] == '-';
    } else {
      assert e[1] == x[0] && e[1..] == x;
    }
  }

  /** The exponent part `e`, an optional sign, and digits x is worth ±x. */
  lemma ExponentOf(esign: string, x: string)
    requires |esign| <= 1 && (|esign| == 1 ==> IsSign(esign[0]))
    requires 0 < |x| && AllDigits(x)
    ensures Exponent("e" + esign + x)
    ensures ExpValue("e" + esign + x) == if esign == "-" then -(DigitsValue(x) as int) else DigitsValue(x)
  {
    ExpDigitsOf(esign, x);
  }

  /**
   * How `NumberValue` splits a literal with at most one sign: the sign
   * negates, the mantissa gives the magnitude, the exponent part scales it.
   */
  lemma NumberValueParts(sign: string, m: string, e: string)
    requires |sign| <= 1 && (|sign| == 1 ==> IsSign(sign[0]))
    requires Mantissa(m) && Exponent(e)
    ensures NumPattern(sign + m + e)
    ensures NumberValue(sign + m + e) ==
      var mag := Scale(MantissaValue(m), ExpValue(e));
      Values.Some(if sign == "-" then -mag else mag)
  {
    MantissaShape(m);
    var lit := sign + (m + e);
    assert sign + m + e == lit;
    SignCountOf(sign, m + e);
    ExpIndexOf(m, e);
    if |sign| == 1 {
      assert lit[0] == sign[0];
      assert sign == "-" <==> sign[0] == '-';
    }
  }

  // ---------------------------------------------------------------------
  // Reading one token
  // ---------------------------------------------------------------------

  /** Where the next token starts: the cursor after separators are skipped. */
  function TokenStart(r: Reader): (s: nat)
    requires r.Valid()
    ensures r.cursor <= s <= r.limit
    ensures s < r.limit ==> !IsSep(r.text[s])
  {
    if r.cursor < r.limit then Skip(r.text, r.cursor, r.limit, r.line, false).0 else r.cursor
  }

  /**
   * The run part of `SILex_Read`, once separators have been skipped up to
   * p1: a string still open at the limit is a failure token; otherwise a
   * non-empty run is classified. An identifier whose run ends exactly at
   * the limit is reported as end of input (its text is kept), because the
   * final limit test is not guarded by a return.
   */
  function ReadRun(r: Reader, p1: nat, line1: nat): (r': Reader)
    requires r.Valid() && p1 <= r.limit
    requires p1 < r.limit ==> !IsSep(r.text[p1])
    ensures r'.Valid() && r'.text == r.text && r'.limit == r.limit && r'.line == line1
    ensures r'.kind != Eof ==> p1 < r'.cursor
    ensures r'.kind == Failure ==>
      r'.cursor == r.limit && r'.val == "Unterminated string literal: " + r.text[p1..r.limit] + "..."
    ensures r'.kind == Identifier ==> r'.cursor < r.limit
  {
    var (p2, reading) := ScanRun(r.text, p1, r.limit, false, '?');
    if reading then
      r.(cursor := p2, line := line1, kind := Failure,
         val := "Unterminated string literal: " + r.text[p1..p2] + "...")
    else if p1 < p2 then Emit(r, p1, p2, line1)
    else
      r.(cursor := p2, line := line1, kind := if p2 >= r.limit then Eof else r.kind)
  }

  /**
   * What a token read by `ReadRun` holds: a string token the text between
   * its quotes, any other word its own text and its classification.
   */
  lemma ReadRunTokens(r: Reader, p1: nat, line1: nat)
    requires r.Valid() && p1 <= r.limit
    requires p1 < r.limit ==> !IsSep(r.text[p1])
    ensures var r' := ReadRun(r, p1, line1);
      && (r'.kind == Str ==>
        StrPattern(r.text[p1..r'.cursor]) && r'.val == r.text[p1 + 1..r'.cursor - 1])
      && (r'.kind == Keyword || r'.kind == Bool || r'.kind == Number || r'.kind == Identifier ==>
        r'.val == r.text[p1..r'.cursor] && Classify(r'.val).0 == r'.kind)
  {
    var (p2, reading) := ScanRun(r.text, p1, r.limit, false, '?');
    if !reading && p1 < p2 {
      assert ReadRun(r, p1, line1) == Emit(r, p1, p2, line1);
    }
  }

  /** The non-empty run [p1, p2), complete, classified into the reader. */
  function Emit(r: Reader, p1: nat, p2: nat, line1: nat): (r': Reader)
    requires r.Valid() && p1 < p2 <= r.limit
    ensures r'.Valid() && r'.text == r.text && r'.limit == r.limit && r'.line == line1 && r'.cursor == p2
    ensures r'.kind != Failure
    ensures r'.kind == Str ==> StrPattern(r.text[p1..p2]) && r'.val == r.text[p1 + 1..p2 - 1]
    ensures r'.kind == Keyword || r'.kind == Bool || r'.kind == Number || r'.kind == Identifier ==>
      r'.val == r.text[p1..p2] && Classify(r'.val).0 == r'.kind
    ensures r'.kind == Identifier ==> p2 < r.limit
  {
    var lit := r.text[p1..p2];
    var c := Classify(lit);
    if c.0 == Str then
      InnerSlice(r.text, p1, p2);
      r.(cursor := p2, line := line1, kind := Str, val := c.1)
    else
      r.(cursor := p2, line := line1, kind := if c.0 == Identifier && p2 >= r.limit then Eof else c.0, val := c.1)
  }

  /** Dropping the first and last character of a slice is the inner slice. */
  lemma InnerSlice(text: string, p1: nat, p2: nat)
    requires p1 < p2 <= |text| && StrPattern(text[p1..p2])
    ensures p1 + 1 <= p2 - 1
    ensures text[p1..p2][1..p2 - p1 - 1] == text[p1 + 1..p2 - 1]
  {
    var lit := text[p1..p2];
    assert 2 <= |lit|;
    assert |lit[1..|lit| - 1]| == |text[p1 + 1..p2 - 1]|;
    forall i | 1 <= i < |lit| - 1
      ensures lit[i] == text[p1 + i]
    {
    }
  }

  /**
   * `SILex_Read`: at or past the limit it yields EOF and changes nothing
   * else; otherwise it skips separators (counting newlines) and reads one run
   * from the token's start.
   */
  function Read(r: Reader): (r': Reader)
    requires r.Valid()
    ensures r'.Valid() && r'.text == r.text && r'.limit == r.limit
    ensures r.cursor >= r.limit ==> r' == r.(kind := Eof)
    ensures r'.kind != Eof ==> r.cursor < r'.cursor
  {
    if r.cursor < r.limit then
      var p1 := TokenStart(r);
      ReadRun(r, p1, r.line + Newlines(r.text, r.cursor, p1))
    else
      r.(kind := Eof)
  }

  /** An identifier that ends at the limit is reported as end of input, keeping its text. */
  lemma IdentifierAtLimitIsEof()
    ensures Read(Reader("x", 0, 1, 1, Eof, "")) == Reader("x", 1, 1, 1, Eof, "x")
  {
    assert Skip("x", 0, 1, 1, false) == (0, 1);
    assert ScanRun("x", 0, 1, false, '?') == (1, false);
    assert "x"[0..1] == "x";
    LoneLetterIsIdentifier();
  }

  lemma LoneLetterIsIdentifier()
    ensures Classify("x") == (Identifier, "x")
  {
    if NumPattern("x") {
      NumberChars("x");
    }
  }

  /**
   * A keyword token ends exactly |keyword| characters after its start, so
   * the read position minus the keyword's length is where the token starts.
   */
  lemma KeywordSpan(r: Reader)
    requires r.Valid() && Read(r).kind == Keyword
    ensures TokenStart(r) + |Read(r).val| == Read(r).cursor
  {
    ReadRunTokens(r, TokenStart(r), r.line + Newlines(r.text, r.cursor, TokenStart(r)));
  }
}

=== FILE: prescan.dfy ===
/**
 * `Proto_Initialize`: one pass of the reader over the whole text that
 * matches `proc`/`if`/`else` with `end` through a stack of markers and
 * records every closed block in the symbol store. Procedures are stored
 * under their name; a conditional is stored under the decimal text of the
 * offset just after its `if`.
 */
module Prescan {
  import opened Values
  import opened Decimal
  import opened Lexer
  import opened LengthTree

  /**
   * An open block: where its body starts (the read position just after the
   * `if`, `else` or procedure name). The source tags them "" and " " and the
   * procedure's name, which cannot clash because no identifier is empty
   * or a lone space, a space being a separator.
   */
  datatype Marker = IfMark(at: nat) | ElseMark(at: nat) | ProcMark(name: string, at: nat)

  type Store = Tree<Binding>

  /** The key of a conditional: `std::to_string` of its `if` offset. */
  function CondKey(at: nat): (k: string)
    ensures 0 < |k| && AllDigits(k)
  {
    NatToString(at)
  }

  /** Distinct `if` offsets never share a key. */
  lemma CondKeyInjective(a: nat, b: nat)
    ensures CondKey(a) == CondKey(b) <==> a == b
  {
    NatToStringInjective(a, b);
  }

  // ---------------------------------------------------------------------
  // Well-formed records
  // ---------------------------------------------------------------------

  /**
   * A record the engine can replay inside a text of length len: a body
   * region that is not inverted and an `end` token that fits in the text;
   * an else-branch starts at least four characters (the `else` token) after
   * the if-branch and not after the `end`.
   */
  predicate BindingWithin(b: Binding, len: nat) {
    match b
    case ProcB(p) => p.start <= p.end && p.end + 3 <= len
    case Cond(c) =>
      && c.ifStart <= c.end && c.end + 3 <= len
      && (c.elseStart == 0 || c.ifStart + 4 <= c.elseStart <= c.end)
    case _ => true
  }

  /** Every binding reachable by a lookup is well formed. */
  ghost predicate StoreWithin(store: Store, len: nat) {
    forall name :: Get(store, name).Some? ==> BindingWithin(Get(store, name).value, len)
  }

  /** No open block starts after the reader's position c. */
  predicate MarkersBelow(markers: seq<Marker>, c: nat) {
    forall i :: 0 <= i < |markers| ==> markers[i].at <= c
  }

  /** An `else` marker lies at least four characters after the marker beneath it. */
  predicate ElseAfterPrevious(markers: seq<Marker>) {
    forall i :: 0 < i < |markers| && markers[i].ElseMark? ==> markers[i - 1].at + 4 <= markers[i].at
  }

  // ---------------------------------------------------------------------
  // Closing a block
  // ---------------------------------------------------------------------

  /**
   * The `end` handler. loc2 is the offset where the `end` token starts and
   * line the reader's line. An `if` closes into a conditional without else;
   * an `else` must sit directly on an `if`, and both close into one
   * conditional keyed by the `if`; a procedure is inserted, or its existing
   * node is overwritten in place.
   */
  function CloseBlock(markers: seq<Marker>, store: Store, loc2: nat, line: nat): (r: Result<(seq<Marker>, Store)>)
  {
    if |markers| == 0 then Err(Message("Unexpected <end>."))
    else
      var top := markers[|markers| - 1];
      var rest := markers[..|markers| - 1];
      match top
      case IfMark(at) =>
        Ok((rest, Insert(store, CondKey(at), Cond(IfElse(at, 0, loc2, line)))))
      case ElseMark(at) =>
        if |rest| == 0 || !rest[|rest| - 1].IfMark? then Err(Message("Expected <if> before <else>."))
        else
          var ifAt := rest[|rest| - 1].at;
          Ok((rest[..|rest| - 1], Insert(store, CondKey(ifAt), Cond(IfElse(ifAt, at, loc2, line)))))
      case ProcMark(name, at) =>
        var p := ProcB(Proc(at, loc2, line));
        if Find(store, name).Nil? then Ok((rest, Insert(store, name, p)))
        else Ok((rest, Assign(store, name, p)))
  }

  /** Closing a block keeps the store ordered by name length. */
  lemma CloseBlockOrdered(markers: seq<Marker>, store: Store, loc2: nat, line: nat)
    requires Ordered(store)
    ensures var r := CloseBlock(markers, store, loc2, line);
      r.Ok? ==> Ordered(r.value.1)
  {
    var n := |markers|;
    if 0 < n {
      match markers[n - 1]
      case IfMark(at) =>
        InsertOrdered(store, CondKey(at), Cond(IfElse(at, 0, loc2, line)));
      case ElseMark(at) =>
        if 2 <= n && markers[n - 2].IfMark? {
          var ifAt := markers[n - 2].at;
          InsertOrdered(store, CondKey(ifAt), Cond(IfElse(ifAt, at, loc2, line)));
        }
      case ProcMark(name, at) =>
        InsertOrdered(store, name, ProcB(Proc(at, loc2, line)));
        AssignOrdered(store, name, ProcB(Proc(at, loc2, line)));
    }
  }

  /** `end` fails exactly when nothing is open or an `else` has no `if` beneath it. */
  lemma CloseBlockFails(markers: seq<Marker>, store: Store, loc2: nat, line: nat)
    ensures var r := CloseBlock(markers, store, loc2, line);
      && (|markers| == 0 <==> r == Err(Message("Unexpected <end>.")))
      && (r == Err(Message("Expected <if> before <else>.")) <==>
            && 0 < |markers| && markers[|markers| - 1].ElseMark?
            && (|markers| == 1 || !markers[|markers| - 2].IfMark?))
      && (r.Err? ==> r == Err(Message("Unexpected <end>.")) || r == Err(Message("Expected <if> before <else>.")))
  {
    if 0 < |markers| && markers[|markers| - 1].ElseMark? && 1 < |markers| {
      assert markers[..|markers| - 1][|markers| - 2] == markers[|markers| - 2];
    }
  }

  /**
   * Closing a procedure pops its marker and binds its name to the body
   * [after the name, start of `end`), whether or not it was bound before:
   * the last closed definition wins. No other name changes.
   */
  lemma CloseProc(markers: seq<Marker>, store: Store, loc2: nat, line: nat, name: string, at: nat)
    requires 0 < |markers| && markers[|markers| - 1] == ProcMark(name, at)
    ensures var r := CloseBlock(markers, store, loc2, line);
      && r.Ok? && r.value.0 == markers[..|markers| - 1]
      && Get(r.value.1, name) == Some(ProcB(Proc(at, loc2, line)))
      && forall m :: m != name ==> Get(r.value.1, m) == Get(store, m)
  {
  }

  /**
   * Closing an `if` without `else` pops one marker and records the
   * conditional with else offset 0 under the key of the `if` offset.
   */
  lemma CloseIf(markers: seq<Marker>, store: Store, loc2: nat, line: nat, at: nat)
    requires 0 < |markers| && markers[|markers| - 1] == IfMark(at)
    requires Get(store, CondKey(at)).None?
    ensures var r := CloseBlock(markers, store, loc2, line);
      && r.Ok? && r.value.0 == markers[..|markers| - 1]
      && Get(r.value.1, CondKey(at)) == Some(Cond(IfElse(at, 0, loc2, line)))
      && forall m :: m != CondKey(at) ==> Get(r.value.1, m) == Get(store, m)
  {
  }

  /**
   * Closing an `else` that sits on an `if` pops both markers and records
   * one conditional holding both branch offsets under the `if`'s key.
   */
  lemma CloseElse(markers: seq<Marker>, store: Store, loc2: nat, line: nat, ifAt: nat, elseAt: nat)
    requires 1 < |markers|
    requires markers[|markers| - 2] == IfMark(ifAt) && markers[|markers| - 1] == ElseMark(elseAt)
    requires Get(store, CondKey(ifAt)).None?
    ensures var r := CloseBlock(markers, store, loc2, line);
      && r.Ok? && r.value.0 == markers[..|markers| - 2]
      && Get(r.value.1, CondKey(ifAt)) == Some(Cond(IfElse(ifAt, elseAt, loc2, line)))
      && forall m :: m != CondKey(ifAt) ==> Get(r.value.1, m) == Get(store, m)
  {
    var rest := markers[..|markers| - 1];
    assert rest[|rest| - 1] == markers[|markers| - 2];
    assert rest[..|rest| - 1] == markers[..|markers| - 2];
  }

  /**
   * When every open block starts no later than the `end` token and the `end`
   * token fits in the text, closing a block records a well-formed region
   * and leaves the remaining markers as they were.
   */
  lemma CloseBlockWithin(markers: seq<Marker>, store: Store, loc2: nat, line: nat, len: nat)
    requires StoreWithin(store, len) && MarkersBelow(markers, loc2) && ElseAfterPrevious(markers)
    requires loc2 + 3 <= len
    ensures var r := CloseBlock(markers, store, loc2, line);
      r.Ok? ==> StoreWithin(r.value.1, len) && MarkersBelow(r.value.0, loc2) && ElseAfterPrevious(r.value.0)
  {
    var n := |markers|;
    if n == 0 {
    } else if markers[n - 1].IfMark? {
      CloseIfWithin(markers, store, loc2, line, len);
    } else if markers[n - 1].ElseMark? {
      CloseElseWithin(markers, store, loc2, line, len);
    } else {
      CloseProcWithin(markers, store, loc2, line, len);
    }
  }

  lemma CloseIfWithin(markers: seq<Marker>, store: Store, loc2: nat, line: nat, len: nat)
    requires StoreWithin(store, len) && MarkersBelow(markers, loc2) && ElseAfterPrevious(markers)
    requires loc2 + 3 <= len && 0 < |markers| && markers[|markers| - 1].IfMark?
    ensures var r := CloseBlock(markers, store, loc2, line);
      r.Ok? && StoreWithin(r.value.1, len) && MarkersBelow(r.value.0, loc2) && ElseAfterPrevious(r.value.0)
  {
    var n := |markers|;
    var at := markers[n - 1].at;
    var b := Cond(IfElse(at, 0, loc2, line));
    PrefixWithin(markers, n - 1, loc2);
    InsertWithin(store, CondKey(at), b, len);
    assert CloseBlock(markers, store, loc2, line) == Ok((markers[..n - 1], Insert(store, CondKey(at), b)));
  }

  lemma CloseElseWithin(markers: seq<Marker>, store: Store, loc2: nat, line: nat, len: nat)
    requires StoreWithin(store, len) && MarkersBelow(markers, loc2) && ElseAfterPrevious(markers)
    requires loc2 + 3 <= len && 0 < |markers| && markers[|markers| - 1].ElseMark?
    ensures var r := CloseBlock(markers, store, loc2, line);
      r.Ok? ==> StoreWithin(r.value.1, len) && MarkersBelow(r.value.0, loc2) && ElseAfterPrevious(r.value.0)
  {
    var n := |markers|;
    if 2 <= n && markers[n - 2].IfMark? {
      var ifAt := markers[n - 2].at;
      var b := Cond(IfElse(ifAt, markers[n - 1].at, loc2, line));
      PrefixWithin(markers, n - 2, loc2);
      InsertWithin(store, CondKey(ifAt), b, len);
      assert markers[..n - 1][..n - 2] == markers[..n - 2];
      assert CloseBlock(markers, store, loc2, line) == Ok((markers[..n - 2], Insert(store, CondKey(ifAt), b)));
    }
  }

  lemma CloseProcWithin(markers: seq<Marker>, store: Store, loc2: nat, line: nat, len: nat)
    requires StoreWithin(store, len) && MarkersBelow(markers, loc2) && ElseAfterPrevious(markers)
    requires loc2 + 3 <= len && 0 < |markers| && markers[|markers| - 1].ProcMark?
    ensures var r := CloseBlock(markers, store, loc2, line);
      r.Ok? && StoreWithin(r.value.1, len) && MarkersBelow(r.value.0, loc2) && ElseAfterPrevious(r.value.0)
  {
    var n := |markers|;
    var b := ProcB(Proc(markers[n - 1].at, loc2, line));
    var name := markers[n - 1].name;
    PrefixWithin(markers, n - 1, loc2);
    InsertWithin(store, name, b, len);
    AssignWithin(store, name, b, len);
    assert CloseBlock(markers, store, loc2, line).value.0 == markers[..n - 1];
  }

  /** Dropping the innermost open blocks keeps the markers' bounds. */
  lemma PrefixWithin(markers: seq<Marker>, k: nat, c: nat)
    requires k <= |markers| && MarkersBelow(markers, c) && ElseAfterPrevious(markers)
    ensures MarkersBelow(markers[..k], c) && ElseAfterPrevious(markers[..k])
  {
    assert forall i :: 0 <= i < k ==> markers[..k][i] == markers[i];
  }

  /** Inserting a well-formed record keeps every record well formed. */
  lemma InsertWithin(store: Store, key: string, b: Binding, len: nat)
    requires StoreWithin(store, len) && BindingWithin(b, len)
    ensures StoreWithin(Insert(store, key, b), len)
  {
    var store' := Insert(store, key, b);
    forall m | Get(store', m).Some?
      ensures BindingWithin(Get(store', m).value, len)
    {
      if m != key {
        assert Get(store', m) == Get(store, m);
      }
    }
  }

  /** Overwriting with a well-formed record keeps every record well formed. */
  lemma AssignWithin(store: Store, key: string, b: Binding, len: nat)
    requires StoreWithin(store, len) && BindingWithin(b, len)
    ensures StoreWithin(Assign(store, key, b), len)
  {
    var store' := Assign(store, key, b);
    forall m | Get(store', m).Some?
      ensures BindingWithin(Get(store', m).value, len)
    {
      if m != key {
        assert Get(store', m) == Get(store, m);
      }
    }
  }

  // ---------------------------------------------------------------------
  // End of input
  // ---------------------------------------------------------------------

  /** The report at end of input: the innermost block still open, if any. */
  function Unclosed(markers: seq<Marker>): (e: Option<Error>)
    ensures e.None? <==> |markers| == 0
  {
    if |markers| == 0 then None
    else
      match markers[|markers| - 1]
      case IfMark(_) => Some(Message("Expected <end> near <if>."))
      case ElseMark(_) => Some(Message("Expected <end> near <else>."))
      case ProcMark(name, _) => Some(Message("Expected <end> near '" + name + "' (<procedure>)."))
  }

  /** The end-of-input report names the innermost open block. */
  lemma UnclosedNamesInnermost(markers: seq<Marker>, name: string, at: nat)
    ensures Unclosed(markers + [IfMark(at)]) == Some(Message("Expected <end> near <if>."))
    ensures Unclosed(markers + [ElseMark(at)]) == Some(Message("Expected <end> near <else>."))
    ensures Unclosed(markers + [ProcMark(name, at)]) ==
      Some(Message("Expected <end> near '" + name + "' (<procedure>)."))
  {
  }

  // ---------------------------------------------------------------------
  // The scan
  // ---------------------------------------------------------------------

  /** Where the scan stopped: the reader, the store built so far, and the error, if any. */
  datatype Scanned = Scanned(reader: Reader, store: Store, error: Option<Error>)

  /** One turn of the scan loop: either the scan stops, or it goes on from a later position. */
  datatype Turn =
    | Stop(result: Scanned)
    | Continue(reader: Reader, markers: seq<Marker>, store: Store)

  /**
   * What the scan needs to know about a read from r giving r1: same text
   * and region, progress unless at end of input, and a keyword token lying
   * wholly after r's position.
   */
  predicate Follows(r: Reader, r1: Reader) {
    && r1.Valid() && r1.text == r.text && r1.limit == r.limit
    && (r1.kind != Eof ==> r.cursor < r1.cursor)
    && (r1.kind == Keyword ==> r.cursor + |r1.val| <= r1.cursor)
  }

  /** A keyword token ends no earlier than its own length into the text. */
  predicate Spans(r1: Reader) {
    r1.kind == Keyword ==> |r1.val| <= r1.cursor
  }

  lemma ReadFollows(r: Reader)
    requires r.Valid()
    ensures Follows(r, Read(r))
  {
    if Read(r).kind == Keyword {
      KeywordSpan(r);
    }
  }

  /**
   * One turn of the loop once the token r1 has been read from r (and r2
   * would be read after it). Tokens other than the four block keywords are
   * skipped. A failure token is reported as is; `proc` must be followed by
   * an identifier (at end of input the message repeats the last text read,
   * which the reader keeps).
   */
  function Dispatch(r: Reader, r1: Reader, r2: Reader, markers: seq<Marker>, store: Store): (t: Turn)
    requires Spans(r1)
    ensures r.Valid() && Follows(r, r1) && Follows(r1, r2) ==>
      && (t.Continue? ==>
            t.reader.Valid() && t.reader.text == r.text && t.reader.limit == r.limit && r.cursor < t.reader.cursor)
      && (t.Stop? ==>
            t.result.reader.Valid() && t.result.reader.text == r.text && t.result.reader.limit == r.limit)
    ensures t.Stop? ==> t.result.store == store
    ensures t.Stop? && t.result.error.None? ==> t.result.reader.kind == Eof
    ensures t.Stop? && t.result.reader.kind == Failure ==> t.result.error == Some(Message(t.result.reader.val))
    ensures r1.kind == Eof ==> t == Stop(Scanned(r1, store, Unclosed(markers)))
    ensures r1.kind != Keyword && r1.kind != Eof && r1.kind != Failure ==> t == Continue(r1, markers, store)
    ensures r1.kind == Keyword && r1.val !in ["proc", "if", "else", "end"] ==> t == Continue(r1, markers, store)
    ensures r1.kind == Keyword && r1.val == "proc" ==>
      && (r2.kind == Failure ==> t == Stop(Scanned(r2, store, Some(Message(r2.val)))))
      && (r2.kind != Failure && r2.kind != Identifier ==>
            t == Stop(Scanned(r2, store, Some(Message("Invalid procedure's name: '" + r2.val + "'.")))))
      && (r2.kind == Identifier ==> t == Continue(r2, markers + [ProcMark(r2.val, r2.cursor)], store))
    ensures r1.kind == Keyword && r1.val == "if" ==> t == Continue(r1, markers + [IfMark(r1.cursor)], store)
    ensures r1.kind == Keyword && r1.val == "else" ==> t == Continue(r1, markers + [ElseMark(r1.cursor)], store)
    ensures r1.kind == Keyword && r1.val == "end" ==>
      var c := CloseBlock(markers, store, r1.cursor - 3, r1.line);
      && (c.Err? ==> t == Stop(Scanned(r1, store, Some(c.error))))
      && (c.Ok? ==> t == Continue(r1, c.value.0, c.value.1))
    ensures t.Continue? && !(r1.kind == Keyword && r1.val == "end") ==> t.store == store
  {
    if r1.kind == Eof then Stop(Scanned(r1, store, Unclosed(markers)))
    else if r1.kind == Failure then Stop(Scanned(r1, store, Some(Message(r1.val))))
    else if r1.kind != Keyword then Continue(r1, markers, store)
    else if r1.val == "proc" then
      if r2.kind == Failure then Stop(Scanned(r2, store, Some(Message(r2.val))))
      else if r2.kind != Identifier then
        Stop(Scanned(r2, store, Some(Message("Invalid procedure's name: '" + r2.val + "'."))))
      else Continue(r2, markers + [ProcMark(r2.val, r2.cursor)], store)
    else if r1.val == "if" then Continue(r1, markers + [IfMark(r1.cursor)], store)
    else if r1.val == "else" then Continue(r1, markers + [ElseMark(r1.cursor)], store)
    else if r1.val == "end" then
      match CloseBlock(markers, store, r1.cursor - 3, r1.line)
      case Err(e) => Stop(Scanned(r1, store, Some(e)))
      case Ok((rest, store')) => Continue(r1, rest, store')
    else Continue(r1, markers, store)
  }

  /** One turn of the loop: read a token, and the one after it when it is `proc`. */
  function ScanStep(r: Reader, markers: seq<Marker>, store: Store): (t: Turn)
    requires r.Valid()
    ensures t.Continue? ==>
      t.reader.Valid() && t.reader.text == r.text && t.reader.limit == r.limit && r.cursor < t.reader.cursor
    ensures t.Stop? ==>
      t.result.reader.Valid() && t.result.reader.text == r.text && t.result.reader.limit == r.limit
    ensures t.Stop? ==> t.result.store == store
    ensures t.Stop? && t.result.error.None? ==> t.result.reader.kind == Eof
    ensures t.Stop? && t.result.reader.kind == Failure ==> t.result.error == Some(Message(t.result.reader.val))
    ensures var r1 := Read(r);
      && (r1.kind == Keyword && r1.val == "if" ==> t == Continue(r1, markers + [IfMark(r1.cursor)], store))
      && (r1.kind == Keyword && r1.val == "else" ==> t == Continue(r1, markers + [ElseMark(r1.cursor)], store))
      && (r1.kind == Keyword && r1.val == "end" ==>
            var c := CloseBlock(markers, store, r1.cursor - 3, r1.line);
            && (c.Err? ==> t == Stop(Scanned(r1, store, Some(c.error))))
            && (c.Ok? ==> t == Continue(r1, c.value.0, c.value.1)))
    ensures var r1 := Read(r); var r2 := Read(r1);
      r1.kind == Keyword && r1.val == "proc" ==>
        && (r2.kind == Identifier ==> t == Continue(r2, markers + [ProcMark(r2.val, r2.cursor)], store))
        && (r2.kind != Identifier && r2.kind != Failure ==>
              t == Stop(Scanned(r2, store, Some(Message("Invalid procedure's name: '" + r2.val + "'.")))))
  {
    var r1 := Read(r);
    ReadFollows(r);
    ReadFollows(r1);
    Dispatch(r, r1, Read(r1), markers, store)
  }

  /** The scan loop: turns until one stops. */
  function Scan(r: Reader, markers: seq<Marker>, store: Store): (s: Scanned)
    requires r.Valid()
    ensures s.reader.Valid() && s.reader.text == r.text && s.reader.limit == r.limit
    decreases r.limit - r.cursor
  {
    match ScanStep(r, markers, store)
    case Stop(s) => s
    case Continue(r', markers', store') => Scan(r', markers', store')
  }

  /** `end`'s block boundary, read position minus 3, is where the `end` token starts. */
  lemma EndBoundaryIsTokenStart(r: Reader)
    requires r.Valid() && Read(r).kind == Keyword && Read(r).val == "end"
    ensures Read(r).cursor - 3 == TokenStart(r)
  {
    KeywordSpan(r);
  }

  /** `else`'s recorded offset minus 4 is where the `else` token starts. */
  lemma ElseBoundaryIsTokenStart(r: Reader)
    requires r.Valid() && Read(r).kind == Keyword && Read(r).val == "else"
    ensures Read(r).cursor - 4 == TokenStart(r)
  {
    KeywordSpan(r);
  }

  /**
   * How a scan stops: without error only at end of input with every block
   * closed; a failure token's text is the report.
   */
  lemma {:induction false} ScanStops(r: Reader, markers: seq<Marker>, store: Store)
    requires r.Valid()
    ensures var s := Scan(r, markers, store);
      && (s.error.None? ==> s.reader.kind == Eof)
      && (s.reader.kind == Failure ==> s.error == Some(Message(s.reader.val)))
    decreases r.limit - r.cursor
  {
    match ScanStep(r, markers, store)
    case Stop(_) =>
    case Continue(r', markers', store') => ScanStops(r', markers', store');
  }

  /** One turn keeps the store ordered by name length. */
  lemma DispatchOrdered(r: Reader, r1: Reader, r2: Reader, markers: seq<Marker>, store: Store)
    requires Spans(r1) && Ordered(store)
    ensures var t := Dispatch(r, r1, r2, markers, store);
      t.Continue? ==> Ordered(t.store)
  {
    var t := Dispatch(r, r1, r2, markers, store);
    if r1.kind == Keyword && r1.val == "end" {
      CloseBlockOrdered(markers, store, r1.cursor - 3, r1.line);
    } else if t.Continue? {
      assert t.store == store;
    }
  }

  /** The scan keeps the store ordered by name length. */
  lemma {:induction false} ScanOrdered(r: Reader, markers: seq<Marker>, store: Store)
    requires r.Valid() && Ordered(store)
    ensures Ordered(Scan(r, markers, store).store)
    decreases r.limit - r.cursor
  {
    var r1 := Read(r);
    ReadFollows(r);
    DispatchOrdered(r, r1, Read(r1), markers, store);
    match ScanStep(r, markers, store)
    case Stop(_) =>
    case Continue(r', markers', store') => ScanOrdered(r', markers', store');
  }

  /** The scan's invariant: stored records well formed, open markers behind the reader. */
  ghost predicate ScanInvariant(r: Reader, markers: seq<Marker>, store: Store) {
    StoreWithin(store, |r.text|) && MarkersBelow(markers, r.cursor) && ElseAfterPrevious(markers)
  }

  /** Opening a block at c' keeps the markers behind the reader and each `else` after its `if`. */
  lemma PushMarker(markers: seq<Marker>, m: Marker, c: nat, c': nat)
    requires MarkersBelow(markers, c) && ElseAfterPrevious(markers)
    requires c <= c' && m.at <= c'
    requires m.ElseMark? ==> c + 4 <= m.at
    ensures MarkersBelow(markers + [m], c') && ElseAfterPrevious(markers + [m])
  {
    var ms := markers + [m];
    forall i | 0 < i < |ms| && ms[i].ElseMark?
      ensures ms[i - 1].at + 4 <= ms[i].at
    {
      if i == |markers| {
        assert ms[i - 1] == markers[|markers| - 1];
      } else {
        assert ms[i - 1] == markers[i - 1] && ms[i] == markers[i];
      }
    }
  }

  /** One turn keeps the scan's invariant. */
  lemma DispatchWithin(r: Reader, r1: Reader, r2: Reader, markers: seq<Marker>, store: Store)
    requires r.Valid() && Follows(r, r1) && Follows(r1, r2) && ScanInvariant(r, markers, store)
    ensures var t := Dispatch(r, r1, r2, markers, store);
      t.Continue? ==> ScanInvariant(t.reader, t.markers, t.store)
  {
    if r1.kind == Keyword && r1.val in ["proc", "if", "else"] {
      OpenWithin(r, r1, r2, markers, store);
    } else if r1.kind == Keyword && r1.val == "end" {
      EndWithin(r, r1, r2, markers, store);
    } else {
      assert Dispatch(r, r1, r2, markers, store).Continue? ==>
        Dispatch(r, r1, r2, markers, store) == Continue(r1, markers, store);
    }
  }

  /** `proc`, `if` and `else` push a marker at the reader's new position. */
  lemma OpenWithin(r: Reader, r1: Reader, r2: Reader, markers: seq<Marker>, store: Store)
    requires r.Valid() && Follows(r, r1) && Follows(r1, r2) && ScanInvariant(r, markers, store)
    requires r1.kind == Keyword && r1.val in ["proc", "if", "else"]
    ensures var t := Dispatch(r, r1, r2, markers, store);
      t.Continue? ==> ScanInvariant(t.reader, t.markers, t.store)
  {
    var m := if r1.val == "proc" then ProcMark(r2.val, r2.cursor)
      else if r1.val == "if" then IfMark(r1.cursor) else ElseMark(r1.cursor);
    var c' := if r1.val == "proc" then r2.cursor else r1.cursor;
    if r1.val != "proc" || r2.kind == Identifier {
      PushMarker(markers, m, r.cursor, c');
    }
  }

  /** `end` closes the innermost block at the offset where the `end` token starts. */
  lemma EndWithin(r: Reader, r1: Reader, r2: Reader, markers: seq<Marker>, store: Store)
    requires r.Valid() && Follows(r, r1) && Follows(r1, r2) && ScanInvariant(r, markers, store)
    requires r1.kind == Keyword && r1.val == "end"
    ensures var t := Dispatch(r, r1, r2, markers, store);
      t.Continue? ==> ScanInvariant(t.reader, t.markers, t.store)
  {
    var loc2 := r1.cursor - 3;
    MarkersRaise(markers, r.cursor, loc2);
    CloseBlockWithin(markers, store, loc2, r1.line, |r.text|);
    var c := CloseBlock(markers, store, loc2, r1.line);
    if c.Ok? {
      MarkersRaise(c.value.0, loc2, r1.cursor);
    }
  }

  /** Markers behind c are behind any later c'. */
  lemma MarkersRaise(markers: seq<Marker>, c: nat, c': nat)
    requires MarkersBelow(markers, c) && c <= c'
    ensures MarkersBelow(markers, c')
  {
  }

  /**
   * Every record the scan stores is well formed: body regions lie inside
   * the text, and an else-branch starts after its `else` token, which
   * follows the `if`.
   */
  lemma {:induction false} ScanWithin(r: Reader, markers: seq<Marker>, store: Store)
    requires r.Valid() && ScanInvariant(r, markers, store)
    ensures StoreWithin(Scan(r, markers, store).store, |r.text|)
    decreases r.limit - r.cursor
  {
    var r1 := Read(r);
    ReadFollows(r);
    ReadFollows(r1);
    DispatchWithin(r, r1, Read(r1), markers, store);
    match ScanStep(r, markers, store)
    case Stop(_) =>
    case Continue(r', markers', store') => ScanWithin(r', markers', store');
  }

  /**
   * The whole prescan: the reader covers the entire text, the store starts
   * as the sentinel alone, and a successful scan ends with the reader
   * flushed.
   */
  function RunPrescan(text: string): (s: Scanned)
    ensures s.reader.Valid() && s.reader.text == text
    ensures Ordered(s.store)
    ensures s.error.None? ==> s.reader.kind == Eof && s.reader.val == "" && s.reader.cursor == 0
    ensures s.reader.kind == Failure ==> s.error == Some(Message(s.reader.val))
  {
    var r := SetRegion(NewReader(text), 0, |text|);
    var s := Scan(r, [], NewTree(Unbound));
    ScanOrdered(r, [], NewTree(Unbound));
    ScanStops(r, [], NewTree(Unbound));
    if s.error.None? then s.(reader := Flush(s.reader)) else s
  }

  /** Every record the prescan stores is well formed. */
  lemma PrescanWithin(text: string)
    ensures StoreWithin(RunPrescan(text).store, |text|)
  {
    var r := SetRegion(NewReader(text), 0, |text|);
    var t := NewTree(Unbound);
    forall m | Get(t, m).Some?
      ensures BindingWithin(Get(t, m).value, |text|)
    {
    }
    ScanWithin(r, [], t);
  }
}

=== FILE: tree.dfy ===
/**
 * The symbol store (`SIAbsTree::Tree`): a binary tree under a sentinel root
 * named "", ordered by the LENGTH of names rather than their content. Every
 * walk goes left iff the key is strictly shorter than the node's name.
 */
module LengthTree {
  import opened Values

  datatype Tree<T> = Nil | Node(name: string, val: T, left: Tree<T>, right: Tree<T>)

  /** The constructor: the sentinel root named "". */
  function NewTree<T>(sentinel: T): (t: Tree<T>)
    ensures Ordered(t) && Names(t) == {""}
  {
    var t := Node("", sentinel, Nil, Nil);
    assert LengthsIn(t.left, 0, Some(0)) && LengthsIn(t.right, 0, None);
    t
  }

  function Names<T>(t: Tree<T>): set<string> {
    if t.Nil? then {} else {t.name} + Names(t.left) + Names(t.right)
  }

  ghost function Entries<T>(t: Tree<T>): multiset<(string, T)> {
    if t.Nil? then multiset{} else multiset{(t.name, t.val)} + Entries(t.left) + Entries(t.right)
  }

  /** A name length n fits between lo (inclusive) and hi (exclusive, when given). */
  predicate FitsIn(n: nat, lo: nat, hi: Option<nat>) {
    lo <= n && (hi.None? || n < hi.value)
  }

  /**
   * Every node's name fits the bounds inherited from the walk down to it:
   * a left step bounds lengths above by the parent's, a right step bounds
   * them below by it.
   */
  predicate LengthsIn<T>(t: Tree<T>, lo: nat, hi: Option<nat>) {
    t.Nil? ||
    (&& FitsIn(|t.name|, lo, hi)
     && LengthsIn(t.left, lo, Some(|t.name|))
     && LengthsIn(t.right, |t.name|, hi))
  }

  /** The shape every insertion keeps: shorter names on the left, the rest on the right. */
  predicate Ordered<T>(t: Tree<T>) {
    LengthsIn(t, 0, None)
  }

  /** The bounds hold of every stored name. */
  lemma {:induction false} LengthsInNames<T>(t: Tree<T>, lo: nat, hi: Option<nat>, n: string)
    requires LengthsIn(t, lo, hi) && n in Names(t)
    ensures FitsIn(|n|, lo, hi)
  {
    if n != t.name {
      if n in Names(t.left) {
        LengthsInNames(t.left, lo, Some(|t.name|), n);
      } else {
        LengthsInNames(t.right, |t.name|, hi, n);
      }
    }
  }

  /** In an ordered tree, names in a left subtree are shorter than the node's and the rest are not. */
  lemma OrderedSides<T>(t: Tree<T>, n: string)
    requires Ordered(t) && t.Node?
    ensures n in Names(t.left) ==> |n| < |t.name|
    ensures n in Names(t.right) ==> |t.name| <= |n|
  {
    if n in Names(t.left) {
      LengthsInNames(t.left, 0, Some(|t.name|), n);
    }
    if n in Names(t.right) {
      LengthsInNames(t.right, |t.name|, None, n);
    }
  }

  /** t is embedded in u: every node of t is in u with the same name, value and links. */
  ghost predicate Embedded<T>(t: Tree<T>, u: Tree<T>) {
    t.Nil? ||
    (&& u.Node?
     && u.name == t.name && u.val == t.val
     && Embedded(t.left, u.left)
     && Embedded(t.right, u.right))
  }

  /**
   * `getNode`: walk from the root, going left iff the key is shorter than
   * the node's name, and stop at the first node whose name equals the key.
   * Nil stands for the null pointer.
   */
  function Find<T>(t: Tree<T>, name: string): (f: Tree<T>)
    ensures f.Nil? || f.name == name
    ensures f.Node? ==> name in Names(t)
  {
    if t.Nil? || t.name == name then t
    else if |name| < |t.name| then Find(t.left, name)
    else Find(t.right, name)
  }

  /** The value at the node `getNode` finds. */
  function Get<T>(t: Tree<T>, name: string): (v: Option<T>)
    ensures v.Some? <==> Find(t, name).Node?
    ensures v.Some? ==> v.value == Find(t, name).val
  {
    if t.Nil? then None
    else if t.name == name then Some(t.val)
    else if |name| < |t.name| then Get(t.left, name)
    else Get(t.right, name)
  }

  lemma {:induction false} EmbeddedReflexive<T>(t: Tree<T>)
    ensures Embedded(t, t)
  {
    if t.Node? {
      EmbeddedReflexive(t.left);
      EmbeddedReflexive(t.right);
    }
  }

  /** In an ordered tree the walk finds every stored name. */
  lemma FindComplete<T>(t: Tree<T>, name: string)
    requires Ordered(t)
    ensures Find(t, name).Node? <==> name in Names(t)
  {
    FindCompleteIn(t, name, 0, None);
  }

  lemma {:induction false} FindCompleteIn<T>(t: Tree<T>, name: string, lo: nat, hi: Option<nat>)
    requires LengthsIn(t, lo, hi)
    ensures Find(t, name).Node? <==> name in Names(t)
  {
    if t.Node? && t.name != name {
      if |name| < |t.name| {
        FindCompleteIn(t.left, name, lo, Some(|t.name|));
        if name in Names(t.right) {
          LengthsInNames(t.right, |t.name|, hi, name);
        }
      } else {
        FindCompleteIn(t.right, name, |t.name|, hi);
        if name in Names(t.left) {
          LengthsInNames(t.left, lo, Some(|t.name|), name);
        }
      }
    }
  }

  /**
   * `insertNode`: walk by the same rule and attach the new node as a leaf
   * at the first missing child. A name already present is found first, so
   * lookups of every name, the new one included, see the old bindings.
   */
  function Insert<T>(t: Tree<T>, name: string, v: T): (r: Tree<T>)
    ensures r.Node?
    ensures Get(r, name) == if Get(t, name).Some? then Get(t, name) else Some(v)
    ensures forall m :: m != name ==> Get(r, m) == Get(t, m)
  {
    if t.Nil? then Node(name, v, Nil, Nil)
    else if |name| < |t.name| then t.(left := Insert(t.left, name, v))
    else t.(right := Insert(t.right, name, v))
  }

  /** Insertion only adds a leaf: every old node keeps its name, value and links. */
  lemma {:induction false} InsertEmbeds<T>(t: Tree<T>, name: string, v: T)
    ensures Embedded(t, Insert(t, name, v))
  {
    if t.Node? {
      if |name| < |t.name| {
        InsertEmbeds(t.left, name, v);
        EmbeddedReflexive(t.right);
      } else {
        InsertEmbeds(t.right, name, v);
        EmbeddedReflexive(t.left);
      }
    }
  }

  /** Insertion adds exactly one entry, even when the name is already stored. */
  lemma {:induction false} InsertEntries<T>(t: Tree<T>, name: string, v: T)
    ensures Entries(Insert(t, name, v)) == Entries(t) + multiset{(name, v)}
  {
    if t.Node? {
      var e := multiset{(t.name, t.val)};
      if |name| < |t.name| {
        InsertEntries(t.left, name, v);
        assert Entries(Insert(t, name, v)) == e + Entries(Insert(t.left, name, v)) + Entries(t.right);
      } else {
        InsertEntries(t.right, name, v);
        assert Entries(Insert(t, name, v)) == e + Entries(t.left) + Entries(Insert(t.right, name, v));
      }
    }
  }

  /** Insertion adds the name to the stored names and nothing else. */
  lemma {:induction false} InsertNames<T>(t: Tree<T>, name: string, v: T)
    ensures Names(Insert(t, name, v)) == Names(t) + {name}
  {
    if t.Node? {
      if |name| < |t.name| {
        InsertNames(t.left, name, v);
      } else {
        InsertNames(t.right, name, v);
      }
    }
  }

  /** Insertion keeps the length ordering. */
  lemma InsertOrdered<T>(t: Tree<T>, name: string, v: T)
    requires Ordered(t)
    ensures Ordered(Insert(t, name, v))
  {
    InsertLengthsIn(t, name, v, 0, None);
  }

  lemma {:induction false} InsertLengthsIn<T>(t: Tree<T>, name: string, v: T, lo: nat, hi: Option<nat>)
    requires LengthsIn(t, lo, hi) && FitsIn(|name|, lo, hi)
    ensures LengthsIn(Insert(t, name, v), lo, hi)
  {
    if t.Nil? {
      assert LengthsIn(Tree<T>.Nil, lo, Some(|name|)) && LengthsIn(Tree<T>.Nil, |name|, hi);
    } else {
      if |name| < |t.name| {
        InsertLengthsIn(t.left, name, v, lo, Some(|t.name|));
      } else {
        InsertLengthsIn(t.right, name, v, |t.name|, hi);
      }
    }
  }

  /**
   * `assign_val` on the node `getNode` finds: its value is replaced in place
   * and nothing else changes. A missing name leaves the tree as it is.
   */
  function Assign<T>(t: Tree<T>, name: string, v: T): (r: Tree<T>)
    ensures Names(r) == Names(t)
    ensures Get(r, name) == if Get(t, name).Some? then Some(v) else None
    ensures forall m :: m != name ==> Get(r, m) == Get(t, m)
  {
    if t.Nil? then Nil
    else if t.name == name then t.(val := v)
    else if |name| < |t.name| then t.(left := Assign(t.left, name, v))
    else t.(right := Assign(t.right, name, v))
  }

  /** Assignment keeps the length ordering. */
  lemma AssignOrdered<T>(t: Tree<T>, name: string, v: T)
    requires Ordered(t)
    ensures Ordered(Assign(t, name, v))
  {
    AssignLengthsIn(t, name, v, 0, None);
  }

  lemma {:induction false} AssignLengthsIn<T>(t: Tree<T>, name: string, v: T, lo: nat, hi: Option<nat>)
    requires LengthsIn(t, lo, hi)
    ensures LengthsIn(Assign(t, name, v), lo, hi)
  {
    if t.Node? && t.name != name {
      if |name| < |t.name| {
        AssignLengthsIn(t.left, name, v, lo, Some(|t.name|));
      } else {
        AssignLengthsIn(t.right, name, v, |t.name|, hi);
      }
    }
  }

  /** The name length of the parent of the node `getNode` finds (parentLen at the root). */
  function ParentLen<T>(t: Tree<T>, name: string, parentLen: nat): nat {
    if t.Nil? || t.name == name then parentLen
    else if |name| < |t.name| then ParentLen(t.left, name, |t.name|)
    else ParentLen(t.right, name, |t.name|)
  }

  /**
   * `delNode` on the node `getNode` finds: it deletes that node's LEFT
   * subtree when its name is shorter than its parent's, otherwise its RIGHT
   * subtree, and leaves the node itself in place, still bound as before.
   * parentLen is the length the walk compares against at the current node.
   */
  function Del<T>(t: Tree<T>, name: string, parentLen: nat): (r: Tree<T>)
    ensures Get(r, name) == Get(t, name)
  {
    if t.Nil? then Nil
    else if t.name == name then (if |name| < parentLen then t.(left := Nil) else t.(right := Nil))
    else if |name| < |t.name| then t.(left := Del(t.left, name, |t.name|))
    else t.(right := Del(t.right, name, |t.name|))
  }

  /**
   * What `delNode` removes: nothing when the name is missing; otherwise
   * exactly one child subtree of the found node, chosen by comparing the
   * name's length with its parent's.
   */
  lemma {:induction false} DelPrunesChild<T>(t: Tree<T>, name: string, parentLen: nat)
    ensures Find(t, name).Nil? ==> Del(t, name, parentLen) == t
    ensures Find(t, name).Node? ==>
      Find(Del(t, name, parentLen), name) ==
        if |name| < ParentLen(t, name, parentLen) then Find(t, name).(left := Nil)
        else Find(t, name).(right := Nil)
  {
    if t.Node? && t.name != name {
      if |name| < |t.name| {
        DelPrunesChild(t.left, name, |t.name|);
      } else {
        DelPrunesChild(t.right, name, |t.name|);
      }
    }
  }

  /** Deleting never adds a name. */
  lemma {:induction false} DelNames<T>(t: Tree<T>, name: string, parentLen: nat)
    ensures Names(Del(t, name, parentLen)) <= Names(t)
  {
    if t.Node? && t.name != name {
      if |name| < |t.name| {
        DelNames(t.left, name, |t.name|);
      } else {
        DelNames(t.right, name, |t.name|);
      }
    }
  }

  /** Deleting never adds an entry. */
  lemma {:induction false} DelEntries<T>(t: Tree<T>, name: string, parentLen: nat)
    ensures Entries(Del(t, name, parentLen)) <= Entries(t)
  {
    if t.Node? {
      var e := multiset{(t.name, t.val)};
      if t.name == name {
      } else if |name| < |t.name| {
        DelEntries(t.left, name, |t.name|);
        assert Entries(Del(t, name, parentLen)) == e + Entries(Del(t.left, name, |t.name|)) + Entries(t.right);
      } else {
        DelEntries(t.right, name, |t.name|);
        assert Entries(Del(t, name, parentLen)) == e + Entries(t.left) + Entries(Del(t.right, name, |t.name|));
      }
    }
  }

  /** The child subtree `delNode` cuts off: empty when the name is missing. */
  function Pruned<T>(t: Tree<T>, name: string, parentLen: nat): Tree<T> {
    var f := Find(t, name);
    if f.Nil? then Nil
    else if |name| < ParentLen(t, name, parentLen) then f.left
    else f.right
  }

  /**
   * The frame of `delNode`: the entries after deleting, together with the
   * pruned child subtree, are exactly the entries before.
   */
  lemma {:induction false} DelEntriesExact<T>(t: Tree<T>, name: string, parentLen: nat)
    ensures Entries(Del(t, name, parentLen)) + Entries(Pruned(t, name, parentLen)) == Entries(t)
  {
    if t.Node? {
      var e := multiset{(t.name, t.val)};
      if t.name == name {
      } else if |name| < |t.name| {
        DelEntriesExact(t.left, name, |t.name|);
        assert Pruned(t, name, parentLen) == Pruned(t.left, name, |t.name|);
        assert Entries(Del(t, name, parentLen)) == e + Entries(Del(t.left, name, |t.name|)) + Entries(t.right);
      } else {
        DelEntriesExact(t.right, name, |t.name|);
        assert Pruned(t, name, parentLen) == Pruned(t.right, name, |t.name|);
        assert Entries(Del(t, name, parentLen)) == e + Entries(t.left) + Entries(Del(t.right, name, |t.name|));
      }
    }
  }

  /** The node `getNode` finds lies inside the tree, subtree and all. */
  lemma {:induction false} FindNames<T>(t: Tree<T>, name: string)
    ensures Names(Find(t, name)) <= Names(t)
  {
    if t.Node? && t.name != name {
      if |name| < |t.name| {
        FindNames(t.left, name);
      } else {
        FindNames(t.right, name);
      }
    }
  }

  /** Every name outside the found node's subtree survives deleting. */
  lemma {:induction false} DelKeepsOutside<T>(t: Tree<T>, name: string, parentLen: nat)
    ensures Names(t) - Names(Find(t, name)) <= Names(Del(t, name, parentLen))
  {
    if t.Node? && t.name != name {
      if |name| < |t.name| {
        DelKeepsOutside(t.left, name, |t.name|);
        FindNames(t.left, name);
      } else {
        DelKeepsOutside(t.right, name, |t.name|);
        FindNames(t.right, name);
      }
    }
  }

  /** Deleting keeps the length ordering. */
  lemma DelOrdered<T>(t: Tree<T>, name: string, parentLen: nat)
    requires Ordered(t)
    ensures Ordered(Del(t, name, parentLen))
  {
    DelLengthsIn(t, name, parentLen, 0, None);
  }

  lemma {:induction false} DelLengthsIn<T>(t: Tree<T>, name: string, parentLen: nat, lo: nat, hi: Option<nat>)
    requires LengthsIn(t, lo, hi)
    ensures LengthsIn(Del(t, name, parentLen), lo, hi)
  {
    if t.Node? && t.name != name {
      if |name| < |t.name| {
        DelLengthsIn(t.left, name, |t.name|, lo, Some(|t.name|));
      } else {
        DelLengthsIn(t.right, name, |t.name|, |t.name|, hi);
      }
    }
  }

  /**
   * Every name still bound after deleting is bound to what it was bound to
   * before: the walk to it crosses the same nodes.
   */
  lemma {:induction false} DelKeepsSurvivors<T>(t: Tree<T>, name: string, parentLen: nat, m: string)
    ensures Get(Del(t, name, parentLen), m).Some? ==> Get(Del(t, name, parentLen), m) == Get(t, m)
  {
    if t.Node? && t.name != name {
      if |name| < |t.name| {
        DelKeepsSurvivors(t.left, name, |t.name|, m);
      } else {
        DelKeepsSurvivors(t.right, name, |t.name|, m);
      }
    }
  }

  /** `delNode` as called: the walk starts at the root with the root's name length. */
  function DelNode<T>(t: Tree<T>, name: string): (r: Tree<T>)
    ensures Get(r, name) == Get(t, name)
  {
    if t.Nil? then t else Del(t, name, |t.name|)
  }

  /**
   * Deleting "x" from a root holding "x" whose right child holds "yy" keeps
   * "x" bound and drops the unrelated "yy".
   */
  lemma DelDropsUnrelated<T>(a: T, b: T, c: T)
    ensures var t := Insert(Insert(NewTree(a), "x", b), "yy", c);
      && Get(t, "yy") == Some(c)
      && Get(DelNode(t, "yy"), "yy") == Some(c)
      && Get(DelNode(t, "x"), "x") == Some(b)
      && Get(DelNode(t, "x"), "yy") == None
  {
    var t0 := NewTree(a);
    assert t0 == Node("", a, Nil, Nil);
    assert |"x"| == 1 && |"yy"| == 2 && |t0.name| == 0;
    assert Insert(t0.right, "x", b) == Node("x", b, Nil, Nil);
    var t1 := Insert(t0, "x", b);
    assert t1 == Node("", a, Nil, Node("x", b, Nil, Nil));
    assert Insert(t1.right, "yy", c) == Node("x", b, Nil, Node("yy", c, Nil, Nil));
    var t := Insert(t1, "yy", c);
    assert t == Node("", a, Nil, Node("x", b, Nil, Node("yy", c, Nil, Nil)));
    assert Del(t.right, "x", 0) == Node("x", b, Nil, Nil);
    assert DelNode(t, "x") == Node("", a, Nil, Node("x", b, Nil, Nil));
  }
}

=== FILE: values.dfy ===
/**
 * The tagged values of the operand stack, the records the prescan stores
 * (`SIProto::Proc`, `SIProto::IfElse`), what a symbol-table node can hold,
 * and the error conditions the interpreter reports.
 */
module Values {

  datatype Option<+T> = None | Some(value: T)

  /**
   * A stack value. Arrays are immutable value sequences here; the source's
   * arrays are vectors of shared element pointers.
   */
  datatype Value =
    | Num(n: real)
    | Str(s: string)
    | Bool(b: bool)
    | Arr(elems: seq<Value>)
    | Ident(name: string)

  /** The type tag string the source attaches to each value. */
  function TypeName(v: Value): string {
    match v
    case Num(_) => "<number>"
    case Str(_) => "<string>"
    case Bool(_) => "<boolean>"
    case Arr(_) => "<array>"
    case Ident(_) => "<identifier>"
  }

  /** A procedure body: the region [start, end) and the line recorded for it. */
  datatype Proc = Proc(start: nat, end: nat, line: nat)

  /**
   * A conditional block: the if-branch starts at ifStart, the else-branch
   * at elseStart (0 when there is no else), and `end` starts at end.
   */
  datatype IfElse = IfElse(ifStart: nat, elseStart: nat, end: nat, line: nat)

  /**
   * What a symbol-table node holds. The sentinel root holds Unbound; the
   * prescan stores procedures and conditionals; `ref` stores variables.
   */
  datatype Binding =
    | Unbound
    | Var(value: Value)
    | ProcB(proc: Proc)
    | Cond(block: IfElse)

  /** The error conditions reported through `ErrorLog`. */
  datatype Error =
    | Message(text: string)
    | StackEmpty
    | ExpectedVal(expected: string, got: string)
    | UnknownRef(name: string)
    | UnknownProc(name: string)
    | InvalidArraySize(size: real)
    | CannotCreateArray(count: nat)
    | InvalidArrayIndex(index: real)
    | ArrayIndexOutOfBound(position: nat)
    | InvalidStringIndex(index: real)
    | StringIndexOutOfRange(index: real)
    | DivideByZero

  datatype Result<+T> = Ok(value: T) | Err(error: Error)

  /** A real that equals its own floor: what `tmp == floor(tmp)` accepts. */
  predicate IsIntegral(x: real) {
    x == x.Floor as real
  }
}
